=== FILE: README.md ===
# OpenCRVS registration core, modelled in Dafny

This project models three parts of OpenCRVS, the civil-registration system.

1. **The registration bundle modifier** of the workflow service. It stamps a FHIR registration `Bundle` and its `Task` as an application moves through its lifecycle (in progress, declared, validated, registered, certified). It writes:
   - a tracking id on the Composition and the Task;
   - a registration number;
   - the event type;
   - the business status, guarded by the duplicate-status check;
   - the `regLastUser`, `regLastLocation` and `regLastOffice` provenance extensions;
   - note authors.

   Its four entry points compose these steps.
2. **The login reducer**. This redux-loop state machine takes a user through password authentication and the SMS code step, then hands over to the register application.
3. **The notification reducer** of the register application. It holds the banner, modal and toast flags.

Modules:

- `Wrappers`: `Option`, `Result` and `Outcome`.
- `Js`: JavaScript truthiness of an optional string: absent and empty are both falsy.
- `Keyed`: the find-first / update-or-append list. `Array.prototype.find` returns the first match. Identifier and reg-status coding writes go through `Keyed.Upsert`, whose lookup, frame, count and idempotence lemmas are proved once here. The provenance extension writes are different, because they append when the first match has no reference. They go through `BundleModifier.SetReference`, which is built on `Keyed.FindFirst` and has its own frame and readback lemmas but no idempotence lemma. The event-type write to `code.coding[0]` is a direct positional write.
- `Fhir`: the FHIR resource shapes, reduced to the fields the core touches. A `Bundle` keeps its Task in a field of its own, and `entry` stands for the entries other than the Task, with the Composition as entry 0. So "other entries unchanged" below says nothing about the Task. It also holds the namespaced keys under the specification URL and the readers a later consumer uses, such as the first identifier of a system or the first extension of a url.
- `BundleModifier`: one pure function per step of `fhir-bundle-modifier.ts`, plus the four entry points. A thrown error becomes a `Failure`.
- `BundleModifierLemmas`: properties that relate several calls, and concrete scenarios.
- `LoginReducer` and `NotificationReducer`: each reducer is a pure function. The login reducer maps (state, action) to (state, command). Both declare the set of fields each action writes, and prove a frame against that set.

Every value the core takes from outside itself becomes a field of `BundleModifier.Lookups`: what it awaits from other services, what generators produce, and the clock. These include the practitioner, their locations, the token's status, the generated tracking id and registration number, the stored copy of the Task, and the clock.

In four places the code behaves differently from what a reader would expect. The model follows the code as written:

- **The duplicate-status guard never raises.** `checkForDuplicateStatusUpdate` compares the stored status *code* (a string) with the new status *coding* (an object) using `===` (fhir-bundle-modifier.ts line 438). That comparison is always false. The code's own evidence shows that a rejection was intended: the comment before the call at line 313, and the 'Application is already in … state' error at lines 439-440. So a DECLARED application submitted again as DECLARED is not rejected (`DeclaredTwiceIsNotRejected`), and no input makes the guard fail (`DuplicateGuardNeverRaises`).
- **CERTIFIED is not terminal.** The guard skips its lookup when the *new* status is CERTIFIED. A Task stored as CERTIFIED can still be marked validated or registered (`CertifiedIsNotTerminal`).
- **VERIFY_CODE_COMPLETED leaves `submitting` unchanged.** It writes an undeclared `stepSubmitting` key instead (`VerifyCodeCompletedLeavesSubmitting`).
- **The provenance writes can append a second extension under the same url.** A write overwrites only when the first extension under that url carries a `valueReference`; otherwise it appends. The reader then still sees the stale first extension (`LastUserWithoutReferenceIsDuplicated`). The readback guarantees are therefore stated url by url under `ReaderSafe`: the first extension under the url is either absent or carries a reference.

## Model

| member | source | states |
|---|---|---|
| Keyed.FindFirst | packages/workflow/src/features/registration/fhir/fhir-bundle-modifier.ts:249-253 | The index found is the first element with the key: it matches and no earlier element does. None means no element matches. |
| Keyed.Upsert | packages/workflow/src/features/registration/fhir/fhir-bundle-modifier.ts:249-262 | When nothing matches, exactly the new element is appended. Otherwise only the first match is replaced by its update and the length is unchanged. |
| Keyed.LookupAfterUpsert | packages/workflow/src/features/registration/fhir/fhir-bundle-modifier.ts:249-262 | After the write, a lookup of the key returns the written element: the appended one, or the updated first match. |
| Keyed.UpsertFrame | packages/workflow/src/features/registration/fhir/fhir-bundle-modifier.ts:249-262 | A write under one key does not change what a lookup of any other key returns. |
| Keyed.CountAfterUpsert | packages/workflow/src/features/registration/fhir/fhir-bundle-modifier.ts:249-262 | The write never duplicates a key. An absent key occurs exactly once afterwards; a present key occurs as often as before. |
| Keyed.UpsertIdempotent | packages/workflow/src/features/registration/fhir/fhir-bundle-modifier.ts:249-262 | Writing the same value twice gives the same list as writing it once. |
| Fhir.ProvenanceUrlsDistinct | packages/workflow/src/features/registration/fhir/fhir-bundle-modifier.ts:331-390 | The regLastLocation, regLastOffice and regLastUser urls differ for every specification URL, so the three writes never touch each other's extension. |
| BundleModifier.SetIdentifier | packages/workflow/src/features/registration/fhir/fhir-bundle-modifier.ts:193-211 | A reader of the system sees the new value. The list is the old one with only the first identifier of the system given the new value, or, when the system was absent, the old one with the new identifier appended. So the number under the system becomes one or stays the same, every other identifier keeps its position and value, every other system reads as before, and the rest of the Task is unchanged. |
| BundleModifier.SetTrackingId | packages/workflow/src/features/registration/fhir/fhir-bundle-modifier.ts:214-265 | Fails with the invalid-bundle error exactly when entry 0 or its resource is missing. Otherwise: the Composition identifier value is the tracking id, with the RFC 3986 URI system when it had no identifier and its old system otherwise. The Task's tracking-id identifier equals the Composition's. Other entries and other Composition fields are unchanged. |
| BundleModifier.PushRN | packages/workflow/src/features/registration/fhir/fhir-bundle-modifier.ts:176-212 | Fails with the invalid-task error exactly when there is no Task. Otherwise the registration number is filed as `SetIdentifier` files it: the first identifier of its system is updated in place, or one is appended when there was none. Every other identifier keeps its position and value, every other system reads as before, and nothing else changes. |
| BundleModifier.SetupRegistrationType | packages/workflow/src/features/registration/fhir/fhir-bundle-modifier.ts:267-284 | The first coding's code is the event type. A Task without codings gets exactly one `<spec>types` coding. Otherwise the first coding keeps its system, later codings are unchanged, and nothing else in the Task changes. |
| BundleModifier.SetRegStatus | packages/workflow/src/features/registration/fhir/fhir-bundle-modifier.ts:293-314 | A reader of the reg-status system sees the new code. The coding list is the old one with only the first reg-status coding given the new code, or the old one with a reg-status coding appended when none existed. So their number becomes one or stays the same, every other coding keeps its position, and the rest of the Task is unchanged. |
| BundleModifier.DuplicateCheckFetch | packages/workflow/src/features/registration/fhir/fhir-bundle-modifier.ts:411-431 | The stored Task is fetched, at `/Task/<id>`, exactly when the Task has a non-empty id, has a reg-status coding, and the new code is not CERTIFIED. |
| BundleModifier.CheckForDuplicateStatusUpdate | packages/workflow/src/features/registration/fhir/fhir-bundle-modifier.ts:411-442 | It passes whenever no fetch happens, and can only fail with the duplicate-status error when a stored Task exists. |
| BundleModifier.SetupRegistrationWorkflow | packages/workflow/src/features/registration/fhir/fhir-bundle-modifier.ts:286-317 | Always succeeds. The written status is the explicit status when that is a non-empty string, and the token's status otherwise. Only the business status changes. |
| BundleModifier.SetReference | packages/workflow/src/features/registration/fhir/fhir-bundle-modifier.ts:331-351 | When the first extension under the url carries a reference, it is overwritten in place at its own position, or kept as it is when not overwriting. Otherwise, including when that first match has no reference, a new reference extension is appended. Extensions under other urls stay in place. |
| BundleModifier.SetReferenceFrame | packages/workflow/src/features/registration/fhir/fhir-bundle-modifier.ts:331-351 | A reader of any other url sees the same extension as before. |
| BundleModifier.SetReferenceReadBack | packages/workflow/src/features/registration/fhir/fhir-bundle-modifier.ts:331-351 | When the url was reader-safe, it stays reader-safe. A reader then finds the new reference, or the kept one when not overwriting an existing reference. |
| BundleModifier.SetReferenceCount | packages/workflow/src/features/registration/fhir/fhir-bundle-modifier.ts:331-351 | The number of extensions under the url grows by one exactly when its first extension is missing or has no reference. |
| BundleModifier.SetReferenceWritten | packages/workflow/src/features/registration/fhir/fhir-bundle-modifier.ts:339-366 | One reference write keeps every extension at its position and url. It changes at most the first extension under its url, and only by overwriting its reference. It appends at most one new reference under that url, doing so exactly when the first extension there has no reference or is missing. Every other url keeps its count. |
| BundleModifier.SetupLastRegLocation | packages/workflow/src/features/registration/fhir/fhir-bundle-modifier.ts:319-369 | Fails with the invalid-practitioner error, before any write, exactly when the practitioner id is absent or empty. On success, every extension keeps its position and url. Extensions under other urls are unchanged. An extension under the two urls is unchanged, or has its reference overwritten when it is the first one under its url. Anything added at the end is a new office-location or primary-office reference. Each of the two urls gains exactly one extension when its first one has no reference or is missing, and otherwise none. A reader then sees the office location under regLastLocation, except in a notification whose existing location reference is kept, and the primary office under regLastOffice. |
| BundleModifier.SetupLastRegUser | packages/workflow/src/features/registration/fhir/fhir-bundle-modifier.ts:371-393 | lastModified is the current time. When the first regLastUser extension carries a reference, it is overwritten in place with the practitioner reference. Otherwise, including when that first one has no reference, a new regLastUser reference is appended at the end, and a reader still sees the old first one. regLastUser reads the practitioner reference when it was reader-safe. Every other extension, its position and count, and the rest of the Task are unchanged. |
| BundleModifier.StampNotes | packages/workflow/src/features/registration/fhir/fhir-bundle-modifier.ts:403-407 | Same number of notes. A note with a non-empty author is unchanged. Every other note gets the author and keeps its text. |
| BundleModifier.SetupAuthorOnNotes | packages/workflow/src/features/registration/fhir/fhir-bundle-modifier.ts:395-409 | A Task without notes is returned unchanged. Otherwise the notes keep their order and number; each note with an author is kept as it is, and each note without one gets the author and keeps its text. Nothing but the notes changes. |
| BundleModifier.SubmitTask | packages/workflow/src/features/registration/fhir/fhir-bundle-modifier.ts:63-90 | Fails exactly when the code list is empty (a type error) or the practitioner has no id. On success, `Submitted` holds:<br>• code.coding[0] carries the event code and keeps its system, and the other codings are kept; a Task without codings gets the single types coding.<br>• The submission status (in progress or declared) is filed as `SetRegStatus` files it, and other business-status codings stay in place.<br>• The user, office and location references are written: every extension keeps its position and url, only the first extension under each of the three urls may have its reference overwritten, and anything appended is a new reference under one of them. Each of the three urls gains one extension exactly when its first one had no reference or was missing. Every other extension is kept in place.<br>• Each of the three urls that was reader-safe stays so and reads, independently of the other two, the acting user, the primary office, or the office location unless a notification keeps an existing location (`ProvenanceStamped`).<br>• lastModified is the current time, and unauthored notes gain the author.<br>• Nothing else in the Task changes. |
| BundleModifier.ModifyRegistrationBundle | packages/workflow/src/features/registration/fhir/fhir-bundle-modifier.ts:47-93 | Errors come in source order: invalid bundle, then empty code list, then invalid practitioner. On success:<br>• Entries after the Composition are unchanged. The Composition's identifier carries the tracking id, with the RFC 3986 system when it had none and its old system otherwise. Its other fields are kept.<br>• The Task's tracking id is filed as `SetIdentifier` files it, and every other identifier stays in place.<br>• Everything `SubmitTask` promises holds of the Task.<br>• Its provenance reads back url by url as `ProvenanceStamped` states: the acting user, the primary office, and the office location unless a notification keeps an existing one. |
| BundleModifier.MarkStatus | packages/workflow/src/features/registration/fhir/fhir-bundle-modifier.ts:101-111 | Fails exactly when the practitioner has no id. On success, `StatusMarked` holds. The status is filed as `SetRegStatus` files it, and other business-status codings stay in place. The location, office and user references are written as for `SubmitTask`: only the first extension under each url may be overwritten, each url gains one appended reference exactly when its first extension had no reference or was missing, and every other extension is kept in place. Each of the three urls that was reader-safe stays so and reads the acting user, the primary office or the office location, each independently of the others. lastModified is the current time. Nothing else in the Task changes. |
| BundleModifier.MarkBundleAsValidated | packages/workflow/src/features/registration/fhir/fhir-bundle-modifier.ts:95-114 | Fails exactly when there is no Task (a type error) or the practitioner has no id. Otherwise the entries are unchanged, and the Task is marked VALIDATED as `MarkStatus` marks it: only the reg-status coding, the three provenance references and lastModified change, and every other coding and extension stays in place. Each provenance url that was reader-safe stays so and reads, independently of the other two, the acting user, the primary office or the office location. |
| BundleModifier.MarkBundleAsRegistered | packages/workflow/src/features/registration/fhir/fhir-bundle-modifier.ts:116-150 | Fails with the invalid-task error when there is no Task, and otherwise when the practitioner has no id. On success the registration number is filed under the event's system as `SetIdentifier` files it, and the tracking id reads as before. The Task is then marked REGISTERED as `MarkStatus` marks it: only the reg-status coding, the three provenance references and lastModified change besides the identifier, and every other coding and extension stays in place. Each provenance url that was reader-safe stays so and reads, independently of the other two, the acting user, the primary office or the office location. |
| BundleModifier.MarkBundleAsCertified | packages/workflow/src/features/registration/fhir/fhir-bundle-modifier.ts:152-174 | Fails exactly when there is no Task or the practitioner has no id. Otherwise the entries are unchanged, and the Task is marked CERTIFIED as `MarkStatus` marks it: only the reg-status coding, the three provenance references and lastModified change, and every other coding and extension stays in place. Each provenance url that was reader-safe stays so and reads, independently of the other two, the acting user, the primary office or the office location. |
| BundleModifier.UserThenLocationStamped | packages/workflow/src/features/registration/fhir/fhir-bundle-modifier.ts:78-87 | The user write followed by the location writes, as a submission runs them, leaves each reader-safe provenance url reader-safe. Each reads the acting user, the primary office, or the office location unless a notification finds a location already set; one stale url does not affect the other two. |
| BundleModifier.LocationThenUserStamped | packages/workflow/src/features/registration/fhir/fhir-bundle-modifier.ts:101-111 | The location writes, never as a notification, followed by the user write, as a status mark runs them, leave each reader-safe provenance url reader-safe, reading the acting user, the primary office or the office location, each independently of the others. |
| BundleModifierLemmas.SetIdentifierIdempotent | packages/workflow/src/features/registration/fhir/fhir-bundle-modifier.ts:193-211 | Filing the same identifier value twice equals filing it once. |
| BundleModifierLemmas.SetTrackingIdIdempotent | packages/workflow/src/features/registration/fhir/fhir-bundle-modifier.ts:214-265 | A second tracking-id assignment with the same id leaves the bundle as the first left it. |
| BundleModifierLemmas.SetTrackingIdTwiceKeepsOneSlot | packages/workflow/src/features/registration/fhir/fhir-bundle-modifier.ts:214-265 | From a Task with at most one tracking-id identifier, two assignments with different ids leave exactly one tracking-id slot. It holds the second id, as does the Composition. (For a Task with more than one, `SetIdentifier`'s count clause says their number stays the same.) |
| BundleModifierLemmas.BirthTrackingIdScenario | packages/workflow/src/features/registration/fhir/fhir-bundle-modifier.ts:236-262 | A birth Composition with no identifier gets `{urn:ietf:rfc:3986, id}`. The Task gets exactly the identifier `<spec>id/birth-tracking-id` with that id. |
| BundleModifierLemmas.SetupRegistrationTypeIdempotent | packages/workflow/src/features/registration/fhir/fhir-bundle-modifier.ts:267-284 | Stamping the event type twice equals stamping it once. |
| BundleModifierLemmas.CertifiedTargetSkipsLookup | packages/workflow/src/features/registration/fhir/fhir-bundle-modifier.ts:420-427 | After CERTIFIED is written, the duplicate check returns without fetching the stored Task. |
| BundleModifierLemmas.DuplicateGuardNeverRaises | packages/workflow/src/features/registration/fhir/fhir-bundle-modifier.ts:432-441 | For every Task and every stored Task, the duplicate check passes: it compares a string with a coding. |
| BundleModifierLemmas.DeclaredTwiceIsNotRejected | packages/workflow/src/features/registration/fhir/fhir-bundle-modifier.ts:411-442 | A Task stored as DECLARED and written as DECLARED again is fetched at `/Task/t1`, and the write still passes. |
| BundleModifierLemmas.CertifiedIsNotTerminal | packages/workflow/src/features/registration/fhir/fhir-bundle-modifier.ts:95-114 | With the stored Task CERTIFIED, marking the bundle validated, or registered, still succeeds, and the Task reads VALIDATED, or REGISTERED. |
| BundleModifierLemmas.SetReferenceKeepsSlotUnique | packages/workflow/src/features/registration/fhir/fhir-bundle-modifier.ts:378-390 | While the url is reader-safe and holds at most one extension, a provenance write keeps it at most one. |
| BundleModifierLemmas.LastUserWithoutReferenceIsDuplicated | packages/workflow/src/features/registration/fhir/fhir-bundle-modifier.ts:378-390 | A regLastUser extension without a reference gets a second regLastUser appended behind it, and a reader still finds no user. |
| BundleModifierLemmas.LastLocationScenario | packages/workflow/src/features/registration/fhir/fhir-bundle-modifier.ts:319-369 | A Task with no extensions, for practitioner P1 with office L2 and primary office L1, ends with exactly regLastLocation to Location/L2 followed by regLastOffice to Location/L1. |
| BundleModifierLemmas.StampNotesIdempotent | packages/workflow/src/features/registration/fhir/fhir-bundle-modifier.ts:403-407 | Stamping note authors twice equals stamping once. |
| BundleModifierLemmas.SetupAuthorOnNotesIdempotent | packages/workflow/src/features/registration/fhir/fhir-bundle-modifier.ts:395-409 | Applying the note-author step twice equals applying it once. |
| LoginReducer.Reduce | packages/login/src/login/reducer.ts:40-174 | Fields outside the action's write set are unchanged. The values each case writes:<br>• AUTHENTICATE sets submitting, clears the error flags, stores the payload, and emits the authenticate call.<br>• AUTHENTICATION_FAILED and VERIFY_CODE_FAILED clear submitting and set the error. RESEND_SMS_FAILED clears resentSMS and sets the error, but leaves submitting as it was, and so does AUTHENTICATE_VALIDATE.<br>• AUTHENTICATION_COMPLETED sets submitting exactly when there is a token, and redirects when there is one, otherwise pushes step two.<br>• RESEND_SMS_COMPLETED replaces the nonce and keeps the mobile.<br>• VERIFY_CODE sends the code with the current nonce.<br>• GOTO_APP and unknown actions keep the state. |
| LoginReducer.NoWritesNoChange | packages/login/src/login/reducer.ts:160-172 | An action that writes no field returns the same state. |
| LoginReducer.DetailsAreLastDelivered | packages/login/src/login/reducer.ts:76-159 | After any sequence of actions, the nonce is the one most recently delivered by an authentication or an SMS resend. The mobile is that of the last authentication, and the token that of the last completed verification. |
| LoginReducer.VerifyCodeUsesLatestNonce | packages/login/src/login/reducer.ts:97-142 | After any sequence of actions, the code check and the SMS resend are sent with the most recently delivered nonce. |
| LoginReducer.GotoAppUsesLatestToken | packages/login/src/login/reducer.ts:145-170 | GOTO_APP redirects with the token of the last completed verification. |
| LoginReducer.VerifyCodeCompletedLeavesSubmitting | packages/login/src/login/reducer.ts:125-159 | After VERIFY_CODE then VERIFY_CODE_COMPLETED, the form is still submitting, holds the token, and has `stepSubmitting` false. |
| NotificationReducer.Reduce | packages/register/src/notification/reducer.ts:35-96 | Every field other than the action's own is unchanged. Show and hide set their flag. SESSION_EXPIRED sets the flag, and no action clears it. The toggle negates the draft flag. The toast actions store or clear their own toast. |
| NotificationReducer.ToggleTwiceRestores | packages/register/src/notification/reducer.ts:68-72 | Toggling the draft-saved notification twice gives back the original state. |
| NotificationReducer.UnchangedWhenAlreadySet | packages/register/src/notification/reducer.ts:43-94 | An action leaves the state unchanged exactly when it repeats what the state already shows: an unknown action, a show or hide of a banner already in that state, SESSION_EXPIRED when already expired, or a toast shown with the data it already holds or hidden when already hidden. The draft-saved toggle always changes the state. |
| NotificationReducer.SessionExpiredIsLatched | packages/register/src/notification/reducer.ts:53-57 | After any sequence of actions, the session is expired exactly when it was expired to begin with or SESSION_EXPIRED was dispatched. |
| NotificationReducer.WaitingWorkerUntouched | packages/register/src/notification/reducer.ts:42-95 | No sequence of actions changes the waiting service worker. |
| NotificationReducer.InitialSessionNotExpired | packages/register/src/notification/reducer.ts:25-57 | From the initial state, the session is expired exactly when SESSION_EXPIRED was dispatched. |

## Left out

- Network and store lookups are inputs in `Lookups`. These are the practitioner and their locations, the token payload, the registration-number service, tracking-id generation and the FHIR store read. Their code is not part of this model.
- The clock is the input `now`. The ISO-8601 formatting of `new Date()` is not modelled.
- `selectOrCreateTaskRefResource` and `getTaskResource` are not part of this model. The bundle's Task is kept in its own field, and a template Task stands for the one created when the bundle has none.
- `getEventType`, `isInProgressApplication` and `isEventNotification` are not part of this model. Their results are inputs.
- The constants module is not part of this model. The status codes are written as their own names.
- The event type has only its two values, birth and death. The third branch of `markBundleAsRegistered`, which skips the registration number for any other event, therefore cannot be reached.
- The model has a practitioner record in every call, so a wholly absent practitioner is modelled only where it behaves like one without an id. In `markBundleAsValidated` and `markBundleAsCertified`, nothing reads it before the `!practitioner` test at line 324. It raises the invalid-practitioner error there, as the model does. In `markBundleAsRegistered`, `pushRN` reads `practitioner.id` at line 188 first, which throws a JavaScript TypeError. In `modifyRegistrationBundle`, `setupLastRegUser` passes it to `getPractitionerRef` at line 80 before the guard. `getPractitionerRef` is not part of this model, so what that failure is stays unmodelled. The model gives the invalid-practitioner error in these last two cases.
- The source mutates the caller's bundle and Task in place, so an error thrown part-way leaves the earlier writes behind. `markBundleAsRegistered` has already filed the registration number (lines 127-133) and written REGISTERED (lines 137-141) when the practitioner guard (line 325) throws. `modifyRegistrationBundle` has already stamped the Composition's tracking id (line 62), and the Task's type and status, before its later errors. The model's `Failure` carries no bundle, so it does not describe these partial writes.
- Object identity in `===` is approximated by equality of the record. This is enough because the only comparison in the core is between a string and an object.
- The login action creators and their payload types (`actions.ts`) are not part of this model. The AUTHENTICATE payload is modelled with the `username` field that `LoginState` declares.
- The redux-loop effects are command values only: the API calls, `push(STEP_TWO)` and `window.location.assign`. `REGISTER_APP_URL` is not modelled.
- The `state = initialState` default of both reducers is modelled by starting traces at `InitialState`.
- The service-worker object in the notification state is an opaque handle. The reducer never reads or writes it.
- Concurrent transitions on the same Task are not modelled, because each call is a single pure function.
- BundleModifier.SetupRegistrationType: requires a non-empty code list. An empty list makes the source write through `undefined`. The entry point `SubmitTask` turns that case into the `RuntimeTypeError` failure.
- BundleModifier.MarkStatus: requires a non-empty status. Its three callers pass the constant VALIDATED, REGISTERED or CERTIFIED.
- BundleModifier.SetupLastRegLocation: its readback clauses hold only for reader-safe urls. When the first extension under a url has no reference, a reader sees the stale extension, not the appended one. The list is still pinned down in that case except for one thing: the contract fixes which extension may be overwritten, which urls gain an appended reference and what it holds, but not the order of the two appended references (the source appends the location before the office).
- BundleModifier.SubmitTask: the order of the references appended at the end is not stated; the source appends them in write order, user, then location, then office.
- BundleModifier.MarkStatus: the order of the references appended at the end is not stated; the source appends them in write order, location, then office, then user.

=== FILE: bundle_modifier.dfy ===
/**
  The registration-lifecycle document updater: the steps that stamp a
  registration Bundle and its Task (tracking id, registration number, event
  type, business status, provenance extensions, note authors) and the four
  entry points that compose them.

  The source edits the Task in place; here every step is a pure function
  from the old Task to the new one, and a thrown error is a `Failure`.
  Every external lookup the source awaits is a field of `Lookups`.
 */
module BundleModifier {
  import opened Wrappers
  import opened Js
  import opened Fhir
  import Keyed

  /** The errors the steps throw. */
  datatype Error =
    | InvalidBundle        // 'Invalid FHIR bundle found for declaration'
    | InvalidTask          // 'Invalid Task resource found for registration'
    | InvalidPractitioner  // 'Invalid practitioner data found'
    | DuplicateStatus      // 'Application is already in ... state'
    | RuntimeTypeError     // a property write on `undefined` the source does not guard

  /** The results of the lookups the entry points perform outside this core. */
  datatype Lookups = Lookups(
    spec: string,               // OPENCRVS_SPECIFICATION_URL
    event: EventType,           // getEventType(bundle)
    trackingId: string,         // generateBirthTrackingId() or generateDeathTrackingId() for `event`
    taskTemplate: Task,         // the Task selectOrCreateTaskRefResource adds when the bundle has none
    tokenStatus: string,        // getRegStatusCode(getTokenPayload(token))
    inProgress: bool,           // isInProgressApplication(bundle)
    notification: bool,         // isEventNotification(bundle)
    practitioner: Practitioner, // getLoggedInPractitionerResource(token)
    practitionerRef: string,    // getPractitionerRef(practitioner)
    officeLocationId: string,   // getPractitionerOfficeLocation(practitioner.id).id
    primaryLocationId: string,  // getPractitionerPrimaryLocation(practitioner.id).id
    registrationNumber: string, // getRegistrationNumber(...).registrationNumber
    persisted: Option<Task>,    // getFromFhir(`/Task/${id}`), the stored copy of the Task
    now: string)                // new Date().toISOString()

  // ---------------------------------------------------------------------------
  // Bundle shape

  /** The guard of both `modifyRegistrationBundle` and `setTrackingId`. */
  predicate ValidBundle(b: Bundle) {
    b.entry.Some? && |b.entry.value| > 0 && b.entry.value[0].resource.Some?
  }

  /** Entry 0's resource, read as the Composition. */
  function Composition(b: Bundle): Resource
    requires ValidBundle(b)
  {
    b.entry.value[0].resource.value
  }

  /** `selectOrCreateTaskRefResource`: the bundle's Task, or the template when it has none. */
  function SelectOrCreateTask(b: Bundle, template: Task): Task {
    b.task.GetOr(template)
  }

  // ---------------------------------------------------------------------------
  // Identifiers: tracking id and registration number

  function WithValue(v: string): Identifier -> Identifier {
    (i: Identifier) => i.(value := Some(v))
  }

  /**
    `ids'` is `ids` with `v` filed under `system`: the first identifier with
    that system gets the value and every other identifier keeps its place
    and content, or a new identifier is appended when there is none.
   */
  predicate IdentifierFiled(ids: seq<Identifier>, ids': seq<Identifier>, system: string, v: string) {
    match Keyed.FindFirst(ids, IdentifierKey, Some(system))
    case None => ids' == ids + [Identifier(Some(system), Some(v))]
    case Some(i) => ids' == ids[i := ids[i].(value := Some(v))]
  }

  /**
    Files `v` under `system` in the Task's identifier list: the first
    identifier with that system gets the new value, or a new identifier is
    appended when there is none.
   */
  function SetIdentifier(t: Task, system: string, v: string): (r: Task)
    ensures r.identifier.Some?
    ensures IdentifierFiled(t.identifier.GetOr([]), r.identifier.value, system, v)
    ensures IdentifierValue(r, system) == Some(v)
    ensures forall other :: other != system ==> IdentifierValue(r, other) == IdentifierValue(t, other)
    ensures var ids := t.identifier.GetOr([]);
            var ids' := r.identifier.value;
            var before := Keyed.Count(ids, IdentifierKey, Some(system));
            && (before == 0 ==> |ids'| == |ids| + 1 && ids'[..|ids|] == ids)
            && (before > 0 ==> |ids'| == |ids|)
            && Keyed.Count(ids', IdentifierKey, Some(system)) == (if before == 0 then 1 else before)
            && (forall j :: 0 <= j < |ids| && ids[j].system != Some(system) ==> ids'[j] == ids[j])
    ensures r.(identifier := t.identifier) == t
  {
    var ids := t.identifier.GetOr([]);
    var k := Some(system);
    var added := Identifier(k, Some(v));
    Keyed.LookupAfterUpsert(ids, IdentifierKey, k, WithValue(v), added);
    Keyed.CountAfterUpsert(ids, IdentifierKey, k, WithValue(v), added);
    Keyed.CountZeroIffAbsent(ids, IdentifierKey, k);
    Keyed.UpsertFrameAll(ids, IdentifierKey, k, WithValue(v), added);
    t.(identifier := Some(Keyed.Upsert(ids, IdentifierKey, k, WithValue(v), added)))
  }

  /**
    `setTrackingId`: stamps the same tracking id on the Composition's primary
    identifier and on the Task's `<spec>id/<event>-tracking-id` identifier.
   */
  function SetTrackingId(b: Bundle, spec: string, event: EventType, trackingId: string, template: Task)
    : (r: Result<Bundle, Error>)
    ensures r.Failure? <==> !ValidBundle(b)
    ensures r.Failure? ==> r.error == InvalidBundle
    ensures r.Success? ==>
              && ValidBundle(r.value)
              && |r.value.entry.value| == |b.entry.value|
              && forall j :: 1 <= j < |b.entry.value| ==> r.value.entry.value[j] == b.entry.value[j]
    ensures r.Success? ==>
              var before := Composition(b);
              var after := Composition(r.value);
              && after.identifier.Some?
              && after.identifier.value.value == Some(trackingId)
              && after.identifier.value.system ==
                   (if before.identifier.None? then Some(UriSystem) else before.identifier.value.system)
              && after.(identifier := before.identifier) == before
    ensures r.Success? ==>
              && r.value.task.Some?
              && r.value.task.value ==
                   SetIdentifier(SelectOrCreateTask(b, template), IdentifierSystem(spec, TrackingIdName(event)), trackingId)
              && IdentifierValue(r.value.task.value, IdentifierSystem(spec, TrackingIdName(event))) ==
                   Composition(r.value).identifier.value.value
  {
    if !ValidBundle(b) then Failure(InvalidBundle)
    else
      var entries := b.entry.value;
      var composition := entries[0].resource.value;
      var identifier :=
        match composition.identifier
        case None => Identifier(Some(UriSystem), Some(trackingId))
        case Some(i) => i.(value := Some(trackingId));
      var stamped := composition.(identifier := Some(identifier));
      var task := SelectOrCreateTask(b, template);
      Success(Bundle(
        Some(entries[0 := entries[0].(resource := Some(stamped))]),
        Some(SetIdentifier(task, IdentifierSystem(spec, TrackingIdName(event)), trackingId))))
  }

  /**
    `pushRN`: files the registration number under `<spec>id/<identifierName>`;
    a missing Task is an error.
   */
  function PushRN(t: Option<Task>, spec: string, identifierName: string, registrationNumber: string)
    : (r: Result<Task, Error>)
    ensures r.Failure? <==> t.None?
    ensures r.Failure? ==> r.error == InvalidTask
    ensures r.Success? ==>
              && r.value.identifier.Some?
              && IdentifierFiled(t.value.identifier.GetOr([]), r.value.identifier.value,
                                 IdentifierSystem(spec, identifierName), registrationNumber)
              && (forall other :: other != IdentifierSystem(spec, identifierName) ==>
                    IdentifierValue(r.value, other) == IdentifierValue(t.value, other))
    ensures r.Success? ==>
              && IdentifierValue(r.value, IdentifierSystem(spec, identifierName)) == Some(registrationNumber)
              && r.value.(identifier := t.value.identifier) == t.value
              && var ids := t.value.identifier.GetOr([]);
                 var before := Keyed.Count(ids, IdentifierKey, Some(IdentifierSystem(spec, identifierName)));
                 Keyed.Count(r.value.identifier.value, IdentifierKey, Some(IdentifierSystem(spec, identifierName))) ==
                   (if before == 0 then 1 else before)
  {
    match t
    case None => Failure(InvalidTask)
    case Some(task) => Success(SetIdentifier(task, IdentifierSystem(spec, identifierName), registrationNumber))
  }

  // ---------------------------------------------------------------------------
  // Registration type

  /** The codings of a concept, or none when the concept or its coding list is absent. */
  predicate HasCoding(c: Option<CodeableConcept>) {
    c.Some? && c.value.coding.Some?
  }

  /** An empty `code.coding` array: `coding[0].code = ...` then writes to `undefined`. */
  predicate EmptyCoding(c: Option<CodeableConcept>) {
    HasCoding(c) && |c.value.coding.value| == 0
  }

  /**
    `setupRegistrationType`: a Task with no `code.coding` gets the single
    coding `<spec>types`/event; otherwise only `coding[0].code` is replaced.
   */
  function SetupRegistrationType(t: Task, spec: string, event: EventType): (r: Task)
    requires !EmptyCoding(t.code)
    ensures HasCoding(r.code) && |r.code.value.coding.value| > 0
    ensures r.code.value.coding.value[0].code == Some(event.Code())
    ensures !HasCoding(t.code) ==>
              r.code.value.coding.value == [Coding(Some(TypesSystem(spec)), Some(event.Code()))]
    ensures HasCoding(t.code) ==>
              var cs := t.code.value.coding.value;
              var cs' := r.code.value.coding.value;
              |cs'| == |cs| && cs'[0].system == cs[0].system && cs'[1..] == cs[1..]
    ensures r.(code := t.code) == t
  {
    if !HasCoding(t.code) then
      t.(code := Some(CodeableConcept(Some([Coding(Some(TypesSystem(spec)), Some(event.Code()))]))))
    else
      var cs := t.code.value.coding.value;
      t.(code := Some(t.code.value.(coding := Some(cs[0 := cs[0].(code := Some(event.Code()))]))))
  }

  // ---------------------------------------------------------------------------
  // Business status

  function Codings(c: Option<CodeableConcept>): seq<Coding> {
    if HasCoding(c) then c.value.coding.value else []
  }

  function WithCode(code: string): Coding -> Coding {
    (c: Coding) => c.(code := Some(code))
  }

  /**
    `cs'` is `cs` with `code` filed under `system`: the first coding with
    that system gets the code and every other coding keeps its place and
    content, or a new coding is appended when there is none.
   */
  predicate CodingFiled(cs: seq<Coding>, cs': seq<Coding>, system: string, code: string) {
    match Keyed.FindFirst(cs, CodingKey, Some(system))
    case None => cs' == cs + [Coding(Some(system), Some(code))]
    case Some(i) => cs' == cs[i := cs[i].(code := Some(code))]
  }

  /**
    The status write of `setupRegistrationWorkflow`: the first business-status
    coding under `<spec>reg-status` gets `code`, or one is appended.
   */
  function SetRegStatus(t: Task, spec: string, code: string): (r: Task)
    ensures RegStatus(r, spec) == Some(code)
    ensures HasCoding(r.businessStatus)
    ensures CodingFiled(Codings(t.businessStatus), r.businessStatus.value.coding.value, RegStatusSystem(spec), code)
    ensures var cs := Codings(t.businessStatus);
            var cs' := r.businessStatus.value.coding.value;
            var before := Keyed.Count(cs, CodingKey, Some(RegStatusSystem(spec)));
            && (before == 0 ==> |cs'| == |cs| + 1 && cs'[..|cs|] == cs)
            && (before > 0 ==> |cs'| == |cs|)
            && Keyed.Count(cs', CodingKey, Some(RegStatusSystem(spec))) == (if before == 0 then 1 else before)
            && (forall j :: 0 <= j < |cs| && cs[j].system != Some(RegStatusSystem(spec)) ==> cs'[j] == cs[j])
    ensures r.(businessStatus := t.businessStatus) == t
  {
    var bs := t.businessStatus.GetOr(CodeableConcept(None));
    var cs := bs.coding.GetOr([]);
    var k := Some(RegStatusSystem(spec));
    var added := Coding(k, Some(code));
    Keyed.LookupAfterUpsert(cs, CodingKey, k, WithCode(code), added);
    Keyed.CountAfterUpsert(cs, CodingKey, k, WithCode(code), added);
    Keyed.CountZeroIffAbsent(cs, CodingKey, k);
    t.(businessStatus := Some(bs.(coding := Some(Keyed.Upsert(cs, CodingKey, k, WithCode(code), added)))))
  }

  /** The first business-status coding under `<spec>reg-status`. */
  function RegStatusCoding(t: Task, spec: string): Option<Coding> {
    Keyed.First(Codings(t.businessStatus), CodingKey, Some(RegStatusSystem(spec)))
  }

  /** The JavaScript values `===` compares at the duplicate check. */
  datatype JsValue = Undefined | Str(s: string) | Obj(coding: Coding)

  function JsOf(s: Option<string>): JsValue {
    match s
    case None => Undefined
    case Some(x) => Str(x)
  }

  /**
    JavaScript's `===`: operands of different types are never equal. Object
    identity is approximated by equality of the record.
   */
  predicate StrictEquals(a: JsValue, b: JsValue) {
    match a
    case Undefined => b.Undefined?
    case Str(x) => b.Str? && b.s == x
    case Obj(x) => b.Obj? && b.coding == x
  }

  /**
    The first half of `checkForDuplicateStatusUpdate`: the path of the stored
    Task it fetches, or `None` when it returns before fetching.
   */
  function DuplicateCheckFetch(t: Task, spec: string): (path: Option<string>)
    ensures path.None? <==>
              !Truthy(t.id) || RegStatusCoding(t, spec).None? ||
              RegStatusCoding(t, spec).value.code == Some(StatusCertified)
    ensures path.Some? ==> path.value == "/Task/" + t.id.value
  {
    if !Truthy(t.id) then None
    else match RegStatusCoding(t, spec)
      case None => None
      case Some(c) => if c.code == Some(StatusCertified) then None else Some("/Task/" + t.id.value)
  }

  /**
    `checkForDuplicateStatusUpdate`, as written: it compares the stored
    status code (a string) with the new status coding (a record), so the
    comparison never holds and the error is never raised.
   */
  function CheckForDuplicateStatusUpdate(t: Task, spec: string, persisted: Option<Task>): (r: Outcome<Error>)
    ensures DuplicateCheckFetch(t, spec).None? ==> r == Pass
    ensures r.Fail? ==> r.error == DuplicateStatus && persisted.Some?
  {
    match DuplicateCheckFetch(t, spec)
    case None => Pass
    case Some(_) =>
      var regStatusCode := RegStatusCoding(t, spec).value;
      var existing := match persisted case None => None case Some(p) => RegStatusCoding(p, spec);
      if existing.Some? && StrictEquals(JsOf(existing.value.code), Obj(regStatusCode)) then Fail(DuplicateStatus)
      else Pass
  }

  /**
    `setupRegistrationWorkflow`: writes the explicit status when it is a
    non-empty string, else the status derived from the token, then runs the
    duplicate check against the stored Task.
   */
  function SetupRegistrationWorkflow(
    t: Task, spec: string, tokenStatus: string, defaultStatus: Option<string>, persisted: Option<Task>)
    : (r: Result<Task, Error>)
    ensures r.Success?
    ensures RegStatus(r.value, spec) == Some(if Truthy(defaultStatus) then defaultStatus.value else tokenStatus)
    ensures r.value == SetRegStatus(t, spec, if Truthy(defaultStatus) then defaultStatus.value else tokenStatus)
    ensures r.value.(businessStatus := t.businessStatus) == t
  {
    var code := if Truthy(defaultStatus) then defaultStatus.value else tokenStatus;
    var updated := SetRegStatus(t, spec, code);
    match CheckForDuplicateStatusUpdate(updated, spec, persisted)
    case Fail(e) => Failure(e)
    case Pass => Success(updated)
  }

  // ---------------------------------------------------------------------------
  // Provenance extensions

  function NewReference(url: string, ref: string): Extension {
    Extension(url, Some(Reference(Some(ref))))
  }

  /**
    The extension write shared by the provenance steps: the first extension
    under `url` is overwritten (when `overwrite`) if it carries a
    `valueReference`; otherwise, including when that first match has no
    `valueReference`, a new extension is appended.
   */
  function SetReference(exts: seq<Extension>, url: string, ref: string, overwrite: bool): (r: seq<Extension>)
    ensures Overwritable(exts, url) ==> |r| == |exts|
    ensures Overwritable(exts, url) && !overwrite ==> r == exts
    ensures Overwritable(exts, url) && overwrite ==>
              && Keyed.FindFirst(exts, ExtensionKey, url).Some?
              && var i := Keyed.FindFirst(exts, ExtensionKey, url).value;
                 exts[i].valueReference.Some? && r == exts[i := Overwrite(exts[i], ref)]
    ensures !Overwritable(exts, url) ==> r == exts + [NewReference(url, ref)]
    ensures forall j :: 0 <= j < |exts| && exts[j].url != url ==> r[j] == exts[j]
  {
    match Keyed.FindFirst(exts, ExtensionKey, url)
    case Some(i) =>
      if exts[i].valueReference.Some? then
        if overwrite then exts[i := Overwrite(exts[i], ref)] else exts
      else exts + [NewReference(url, ref)]
    case None => exts + [NewReference(url, ref)]
  }

  function Overwrite(e: Extension, ref: string): Extension
    requires e.valueReference.Some?
  {
    e.(valueReference := Some(e.valueReference.value.(reference := Some(ref))))
  }

  /** A write under `url` leaves the first extension under every other url where it was. */
  lemma SetReferenceFrame(exts: seq<Extension>, url: string, ref: string, overwrite: bool)
    ensures forall u :: u != url ==> Slot(SetReference(exts, url, ref, overwrite), u) == Slot(exts, u)
  {
    match Keyed.FindFirst(exts, ExtensionKey, url)
    case Some(i) =>
      if exts[i].valueReference.Some? && overwrite {
        Keyed.FirstAfterReplaceOther(exts, ExtensionKey, i, Overwrite(exts[i], ref));
      } else if exts[i].valueReference.None? {
        Keyed.FirstAfterAppendOther(exts, ExtensionKey, NewReference(url, ref));
      }
    case None =>
      Keyed.FirstAfterAppendOther(exts, ExtensionKey, NewReference(url, ref));
  }

  /**
    When the first extension under `url` is reader-safe, a reader finds the
    reference just written (or the kept one, when not overwriting).
   */
  lemma SetReferenceReadBack(exts: seq<Extension>, url: string, ref: string, overwrite: bool)
    ensures var r := SetReference(exts, url, ref, overwrite);
            ReaderSafe(exts, url) ==>
            && ReaderSafe(r, url)
            && ReferenceIn(r, url) == (if overwrite || !Overwritable(exts, url) then Some(ref) else ReferenceIn(exts, url))
  {
    match Keyed.FindFirst(exts, ExtensionKey, url)
    case Some(i) =>
      if overwrite && exts[i].valueReference.Some? {
        Keyed.FindFirstAfterReplace(exts, ExtensionKey, url, i, Overwrite(exts[i], ref));
      }
    case None =>
      Keyed.FindFirstAfterAppend(exts, ExtensionKey, url, NewReference(url, ref));
  }

  /**
    The number of extensions under `url` grows by one exactly when the first
    of them cannot be overwritten (it is missing or has no `valueReference`).
   */
  lemma SetReferenceCount(exts: seq<Extension>, url: string, ref: string, overwrite: bool)
    ensures Keyed.Count(SetReference(exts, url, ref, overwrite), ExtensionKey, url) ==
              Keyed.Count(exts, ExtensionKey, url) + (if Overwritable(exts, url) then 0 else 1)
  {
    match Keyed.FindFirst(exts, ExtensionKey, url)
    case Some(i) =>
      if exts[i].valueReference.Some? {
        if overwrite {
          Keyed.CountReplace(exts, ExtensionKey, url, i, Overwrite(exts[i], ref));
        }
      } else {
        Keyed.CountAppend(exts, ExtensionKey, url, NewReference(url, ref));
      }
    case None =>
      Keyed.CountAppend(exts, ExtensionKey, url, NewReference(url, ref));
  }

  /**
    What writing the references `refs` (url to reference) did to an
    extension list: every extension keeps its position and url; one under a
    url outside `refs` is unchanged, one under a url of `refs` is unchanged
    or, when it is the first extension under that url, has its reference
    overwritten with that url's reference; and the
    extensions added at the end are new references under urls of `refs`.
    Each url of `refs` gains one extension exactly when its first extension
    could not be overwritten, and every other url keeps its count.
   */
  ghost predicate ExtensionsWritten(e: seq<Extension>, e': seq<Extension>, refs: map<string, string>) {
    && |e| <= |e'|
    && (forall j :: 0 <= j < |e'| ==> PositionWritten(e, e', refs, j))
    && (forall u :: Keyed.Count(e', ExtensionKey, u) ==
                     Keyed.Count(e, ExtensionKey, u) + (if u in refs && !Overwritable(e, u) then 1 else 0))
  }

  /**
    Position `j` of `e'` is what writing `refs` may make of position `j` of
    `e`: the same url, and the same extension unless the url is one of
    `refs` and `j` is the first position under it, in which case its
    reference may be overwritten; a position past
    the end of `e` holds a new reference under a url of `refs`.
   */
  predicate PositionWritten(e: seq<Extension>, e': seq<Extension>, refs: map<string, string>, j: int) {
    if 0 <= j < |e| then
      && j < |e'|
      && e'[j].url == e[j].url
      && (e[j].url !in refs ==> e'[j] == e[j])
      && (e[j].url in refs ==>
            e'[j] == e[j] || (e[j].valueReference.Some? && e'[j] == Overwrite(e[j], refs[e[j].url])))
      && (e'[j] != e[j] ==> Keyed.FindFirst(e, ExtensionKey, e[j].url) == Some(j))
    else
      0 <= j < |e'| ==> e'[j].url in refs && e'[j] == NewReference(e'[j].url, refs[e'[j].url])
  }

  /** A single reference write is an extension write of that one url. */
  lemma SetReferenceWritten(exts: seq<Extension>, url: string, ref: string, overwrite: bool)
    ensures ExtensionsWritten(exts, SetReference(exts, url, ref, overwrite), map[url := ref])
  {
    var r := SetReference(exts, url, ref, overwrite);
    forall j | 0 <= j < |r|
      ensures PositionWritten(exts, r, map[url := ref], j)
    {
    }
    if !Overwritable(exts, url) {
      forall u
        ensures Keyed.Count(r, ExtensionKey, u) == Keyed.Count(exts, ExtensionKey, u) + (if u == url then 1 else 0)
      {
        Keyed.CountAppend(exts, ExtensionKey, u, NewReference(url, ref));
      }
    } else if overwrite {
      var i := Keyed.FindFirst(exts, ExtensionKey, url).value;
      forall u
        ensures Keyed.Count(r, ExtensionKey, u) == Keyed.Count(exts, ExtensionKey, u)
      {
        Keyed.CountReplace(exts, ExtensionKey, u, i, Overwrite(exts[i], ref));
      }
    }
  }

  /**
    Two extension writes under different urls compose into one, when the
    second finds the first extension of each of its urls where the first
    write left it.
   */
  lemma ExtensionsWrittenCompose(
    a: seq<Extension>, b: seq<Extension>, c: seq<Extension>, first: map<string, string>, second: map<string, string>)
    requires ExtensionsWritten(a, b, first) && ExtensionsWritten(b, c, second)
    requires first.Keys !! second.Keys
    ensures ExtensionsWritten(a, c, first + second)
  {
    var refs := first + second;
    forall j | 0 <= j < |c|
      ensures PositionWritten(a, c, refs, j)
    {
      if j < |b| {
        assert PositionWritten(a, b, first, j);
        if j < |a| && a[j].url in second {
          WrittenKeepsOtherFirst(a, b, first, a[j].url);
        }
      }
      assert PositionWritten(b, c, second, j);
    }
    forall u
      ensures Keyed.Count(c, ExtensionKey, u) ==
                Keyed.Count(a, ExtensionKey, u) + (if u in refs && !Overwritable(a, u) then 1 else 0)
    {
      if u in second {
        WrittenKeepsOtherFirst(a, b, first, u);
      }
    }
  }

  /** An extension write leaves the first extension under every url it does not write where it was. */
  lemma WrittenKeepsOtherFirst(e: seq<Extension>, e': seq<Extension>, refs: map<string, string>, u: string)
    requires ExtensionsWritten(e, e', refs)
    requires u !in refs
    ensures Keyed.FindFirst(e', ExtensionKey, u) == Keyed.FindFirst(e, ExtensionKey, u)
    ensures Slot(e', u) == Slot(e, u)
  {
    forall j | 0 <= j < |e|
      ensures ExtensionKey(e'[j]) == ExtensionKey(e[j])
    {
      assert PositionWritten(e, e', refs, j);
    }
    forall j | |e| <= j < |e'|
      ensures ExtensionKey(e'[j]) != u
    {
      assert PositionWritten(e, e', refs, j);
    }
    Keyed.FindFirstAfterExtend(e, e', ExtensionKey, u);
    match Keyed.FindFirst(e, ExtensionKey, u)
    case Some(i) =>
      assert PositionWritten(e, e', refs, i);
    case None =>
  }

  /** The references `setupLastRegLocation` writes: the office location and the primary office. */
  function LocationRefs(spec: string, officeLocationId: string, primaryLocationId: string): map<string, string> {
    map[LastLocationUrl(spec) := LocationRef(officeLocationId), LastOfficeUrl(spec) := LocationRef(primaryLocationId)]
  }

  /** Two single-entry maps under different keys join into the two-entry map. */
  lemma MapUnionOfTwo(url1: string, ref1: string, url2: string, ref2: string)
    requires url1 != url2
    ensures map[url1 := ref1] + map[url2 := ref2] == map[url1 := ref1, url2 := ref2]
  {
  }

  /** Two reference writes under different urls together write both references. */
  lemma TwoReferencesWritten(
    exts: seq<Extension>, url1: string, ref1: string, overwrite1: bool, url2: string, ref2: string, overwrite2: bool)
    requires url1 != url2
    ensures ExtensionsWritten(exts, SetReference(SetReference(exts, url1, ref1, overwrite1), url2, ref2, overwrite2),
                              map[url1 := ref1, url2 := ref2])
  {
    var once := SetReference(exts, url1, ref1, overwrite1);
    var twice := SetReference(once, url2, ref2, overwrite2);
    SetReferenceWritten(exts, url1, ref1, overwrite1);
    SetReferenceWritten(once, url2, ref2, overwrite2);
    SetReferenceFrame(exts, url1, ref1, overwrite1);
    ExtensionsWrittenCompose(exts, once, twice, map[url1 := ref1], map[url2 := ref2]);
    MapUnionOfTwo(url1, ref1, url2, ref2);
  }

  /**
    After two reference writes under different urls, the first extension of
    every other url is where it was, and a reader of either url that was
    reader-safe sees what its write left there.
   */
  lemma TwoReferencesReadBack(
    exts: seq<Extension>, url1: string, ref1: string, overwrite1: bool, url2: string, ref2: string, overwrite2: bool)
    requires url1 != url2
    ensures var twice := SetReference(SetReference(exts, url1, ref1, overwrite1), url2, ref2, overwrite2);
            && (forall u :: u != url1 && u != url2 ==> Slot(twice, u) == Slot(exts, u))
            && (ReaderSafe(exts, url1) ==>
                  && ReaderSafe(twice, url1)
                  && ReferenceIn(twice, url1) ==
                       if overwrite1 || !Overwritable(exts, url1) then Some(ref1) else ReferenceIn(exts, url1))
            && (ReaderSafe(exts, url2) ==>
                  && ReaderSafe(twice, url2)
                  && ReferenceIn(twice, url2) ==
                       if overwrite2 || !Overwritable(exts, url2) then Some(ref2) else ReferenceIn(exts, url2))
  {
    var once := SetReference(exts, url1, ref1, overwrite1);
    SetReferenceFrame(exts, url1, ref1, overwrite1);
    SetReferenceReadBack(exts, url1, ref1, overwrite1);
    SetReferenceFrame(once, url2, ref2, overwrite2);
    SetReferenceReadBack(once, url2, ref2, overwrite2);
    assert Slot(once, url2) == Slot(exts, url2);
  }

  /**
    `setupLastRegLocation`: a practitioner without an id is an error raised
    before any write. `regLastLocation` is pointed at the office location,
    unless this is a notification and it already holds a reference;
    `regLastOffice` is always pointed at the primary office.
   */
  function SetupLastRegLocation(
    t: Task, spec: string, practitioner: Practitioner,
    officeLocationId: string, primaryLocationId: string, isNotification: bool)
    : (r: Result<Task, Error>)
    ensures r.Failure? <==> !Truthy(practitioner.id)
    ensures r.Failure? ==> r.error == InvalidPractitioner
    ensures r.Success? ==> r.value.extension.Some? && r.value.(extension := t.extension) == t
    ensures r.Success? ==>
              var exts := t.extension.GetOr([]);
              var exts' := r.value.extension.value;
              && (forall u :: u != LastLocationUrl(spec) && u != LastOfficeUrl(spec) ==> Slot(exts', u) == Slot(exts, u))
              && (ReaderSafe(exts, LastLocationUrl(spec)) ==>
                    && ReaderSafe(exts', LastLocationUrl(spec))
                    && ReferenceIn(exts', LastLocationUrl(spec)) ==
                         if isNotification && Overwritable(exts, LastLocationUrl(spec))
                         then ReferenceIn(exts, LastLocationUrl(spec))
                         else Some(LocationRef(officeLocationId)))
              && (ReaderSafe(exts, LastOfficeUrl(spec)) ==>
                    && ReaderSafe(exts', LastOfficeUrl(spec))
                    && ReferenceIn(exts', LastOfficeUrl(spec)) == Some(LocationRef(primaryLocationId)))
    ensures r.Success? ==>
              ExtensionsWritten(t.extension.GetOr([]), r.value.extension.value,
                                LocationRefs(spec, officeLocationId, primaryLocationId))
  {
    if !Truthy(practitioner.id) then Failure(InvalidPractitioner)
    else
      var exts := t.extension.GetOr([]);
      var location, office := LastLocationUrl(spec), LastOfficeUrl(spec);
      var located := SetReference(exts, location, LocationRef(officeLocationId), !isNotification);
      var officed := SetReference(located, office, LocationRef(primaryLocationId), true);
      ProvenanceUrlsDistinct(spec);
      TwoReferencesReadBack(exts, location, LocationRef(officeLocationId), !isNotification,
                            office, LocationRef(primaryLocationId), true);
      TwoReferencesWritten(exts, location, LocationRef(officeLocationId), !isNotification,
                           office, LocationRef(primaryLocationId), true);
      Success(t.(extension := Some(officed)))
  }

  /**
    `setupLastRegUser`: points `regLastUser` at the acting practitioner and
    stamps `lastModified`.
   */
  function SetupLastRegUser(t: Task, spec: string, practitionerRef: string, now: string): (r: Task)
    ensures r.lastModified == Some(now)
    ensures r.extension.Some? && r.(extension := t.extension, lastModified := t.lastModified) == t
    ensures var exts := t.extension.GetOr([]);
            var exts' := r.extension.value;
            && (forall u :: u != LastUserUrl(spec) ==> Slot(exts', u) == Slot(exts, u))
            && (ReaderSafe(exts, LastUserUrl(spec)) ==>
                  ReaderSafe(exts', LastUserUrl(spec)) && ReferenceIn(exts', LastUserUrl(spec)) == Some(practitionerRef))
    ensures var exts := t.extension.GetOr([]);
            var exts' := r.extension.value;
            var url := LastUserUrl(spec);
            && (!Overwritable(exts, url) ==> exts' == exts + [NewReference(url, practitionerRef)])
            && (Overwritable(exts, url) ==>
                  && Keyed.FindFirst(exts, ExtensionKey, url).Some?
                  && var i := Keyed.FindFirst(exts, ExtensionKey, url).value;
                     exts[i].valueReference.Some? && exts' == exts[i := Overwrite(exts[i], practitionerRef)])
    ensures ExtensionsWritten(t.extension.GetOr([]), r.extension.value, map[LastUserUrl(spec) := practitionerRef])
  {
    var exts := t.extension.GetOr([]);
    SetReferenceWritten(exts, LastUserUrl(spec), practitionerRef, true);
    SetReferenceFrame(exts, LastUserUrl(spec), practitionerRef, true);
    SetReferenceReadBack(exts, LastUserUrl(spec), practitionerRef, true);
    t.(extension := Some(SetReference(exts, LastUserUrl(spec), practitionerRef, true)), lastModified := Some(now))
  }

  // ---------------------------------------------------------------------------
  // Note authors

  /** The `forEach` of `setupAuthorOnNotes`: notes without a (non-empty) author get `author`. */
  function StampNotes(notes: seq<Annotation>, author: string): (r: seq<Annotation>)
    ensures |r| == |notes|
    ensures forall j :: 0 <= j < |notes| && Truthy(notes[j].authorString) ==> r[j] == notes[j]
    ensures forall j :: 0 <= j < |notes| && !Truthy(notes[j].authorString) ==>
              r[j].authorString == Some(author) && r[j].text == notes[j].text
  {
    if |notes| == 0 then []
    else
      var head := if Truthy(notes[0].authorString) then notes[0] else notes[0].(authorString := Some(author));
      [head] + StampNotes(notes[1..], author)
  }

  /**
    `after` is `before` with every note that lacks a (non-empty) author
    given `author`, in the same order, and no notes when there were none.
   */
  predicate NotesAuthored(before: Option<seq<Annotation>>, after: Option<seq<Annotation>>, author: string) {
    match before
    case None => after.None?
    case Some(notes) =>
      && after.Some? && |after.value| == |notes|
      && forall j :: 0 <= j < |notes| ==>
           after.value[j] == (if Truthy(notes[j].authorString) then notes[j] else Annotation(notes[j].text, Some(author)))
  }

  /** `setupAuthorOnNotes`: a Task without notes is returned untouched. */
  function SetupAuthorOnNotes(t: Task, author: string): (r: Task)
    ensures t.note.None? ==> r == t
    ensures r.(note := t.note) == t
    ensures NotesAuthored(t.note, r.note, author)
  {
    match t.note
    case None => t
    case Some(notes) => t.(note := Some(StampNotes(notes, author)))
  }

  // ---------------------------------------------------------------------------
  // Entry points

  /**
    What the provenance steps leave for a reader, url by url: each of the
    three provenance urls that was reader-safe in `before` stays so and
    reads the acting user, the primary office or the office location,
    except that a notification keeps a location reference already there.
   */
  predicate ProvenanceStamped(
    before: Option<seq<Extension>>, after: Option<seq<Extension>>, env: Lookups, isNotification: bool)
  {
    var e, e' := before.GetOr([]), after.GetOr([]);
    var location, office, user := LastLocationUrl(env.spec), LastOfficeUrl(env.spec), LastUserUrl(env.spec);
    && (ReaderSafe(e, user) ==> ReaderSafe(e', user) && ReferenceIn(e', user) == Some(env.practitionerRef))
    && (ReaderSafe(e, office) ==>
          ReaderSafe(e', office) && ReferenceIn(e', office) == Some(LocationRef(env.primaryLocationId)))
    && (ReaderSafe(e, location) ==>
          && ReaderSafe(e', location)
          && ReferenceIn(e', location) ==
               if isNotification && Overwritable(e, location) then ReferenceIn(e, location)
               else Some(LocationRef(env.officeLocationId)))
  }

  /** The references a submission and a status mark both write: last location, last office and last user. */
  function ProvenanceRefs(env: Lookups): map<string, string> {
    map[LastLocationUrl(env.spec) := LocationRef(env.officeLocationId),
        LastOfficeUrl(env.spec) := LocationRef(env.primaryLocationId),
        LastUserUrl(env.spec) := env.practitionerRef]
  }

  /** The user write and the location writes make up `ProvenanceRefs`, in either order. */
  lemma ProvenanceRefsSplit(env: Lookups)
    ensures var user := map[LastUserUrl(env.spec) := env.practitionerRef];
            var located := LocationRefs(env.spec, env.officeLocationId, env.primaryLocationId);
            && user.Keys !! located.Keys
            && user + located == ProvenanceRefs(env)
            && located + user == ProvenanceRefs(env)
  {
    ProvenanceUrlsDistinct(env.spec);
  }

  /** The status `modifyRegistrationBundle` asks for. */
  function SubmissionStatus(env: Lookups): string {
    if env.inProgress then StatusInProgress else StatusDeclared
  }

  /**
    What a submission writes into the Task: the event code in the first
    coding of `code` (the only coding, when there were none), the submission
    status filed as the reg-status coding, the provenance references, the
    time, and authors on the unauthored notes; nothing else changes. The
    provenance reads back as `ProvenanceStamped` states it.
   */
  ghost predicate Submitted(t: Task, t': Task, env: Lookups) {
    && HasCoding(t'.code) && |t'.code.value.coding.value| > 0
    && t'.code.value.coding.value[0].code == Some(env.event.Code())
    && (!HasCoding(t.code) ==>
          t'.code.value.coding.value == [Coding(Some(TypesSystem(env.spec)), Some(env.event.Code()))])
    && (HasCoding(t.code) && |Codings(t.code)| > 0 ==>
          var cs, cs' := Codings(t.code), t'.code.value.coding.value;
          |cs'| == |cs| && cs'[0].system == cs[0].system && cs'[1..] == cs[1..])
    && HasCoding(t'.businessStatus)
    && CodingFiled(Codings(t.businessStatus), t'.businessStatus.value.coding.value,
                   RegStatusSystem(env.spec), SubmissionStatus(env))
    && RegStatus(t', env.spec) == Some(SubmissionStatus(env))
    && t'.extension.Some?
    && ExtensionsWritten(t.extension.GetOr([]), t'.extension.value, ProvenanceRefs(env))
    && ProvenanceStamped(t.extension, t'.extension, env, env.notification)
    && t'.lastModified == Some(env.now)
    && NotesAuthored(t.note, t'.note, env.practitionerRef)
    && t'.(code := t.code, businessStatus := t.businessStatus, extension := t.extension,
           lastModified := t.lastModified, note := t.note) == t
  }

  /**
    The Task part of `modifyRegistrationBundle`, after the tracking id:
    event type, status, last user, last location and note authors.
   */
  function SubmitTask(t: Task, env: Lookups): (r: Result<Task, Error>)
    ensures r.Failure? <==> EmptyCoding(t.code) || !Truthy(env.practitioner.id)
    ensures r.Failure? ==> r.error == (if EmptyCoding(t.code) then RuntimeTypeError else InvalidPractitioner)
    ensures r.Success? ==> Submitted(t, r.value, env)
  {
    if EmptyCoding(t.code) then Failure(RuntimeTypeError)
    else
      var typed := SetupRegistrationType(t, env.spec, env.event);
      match SetupRegistrationWorkflow(typed, env.spec, env.tokenStatus, Some(SubmissionStatus(env)), env.persisted)
      case Failure(e) => Failure(e)
      case Success(progressed) =>
        var byUser := SetupLastRegUser(progressed, env.spec, env.practitionerRef, env.now);
        var located :- SetupLastRegLocation(
          byUser, env.spec, env.practitioner, env.officeLocationId, env.primaryLocationId, env.notification);
        ProvenanceUrlsDistinct(env.spec);
        ProvenanceRefsSplit(env);
        ExtensionsWrittenCompose(
          t.extension.GetOr([]), byUser.extension.value, located.extension.value,
          map[LastUserUrl(env.spec) := env.practitionerRef],
          LocationRefs(env.spec, env.officeLocationId, env.primaryLocationId));
        UserThenLocationStamped(progressed, env);
        Success(SetupAuthorOnNotes(located, env.practitionerRef))
  }

  /** Two extension lists with the same first extension under `u` read the same there. */
  lemma SameSlotSameReading(a: seq<Extension>, b: seq<Extension>, u: string)
    requires Slot(a, u) == Slot(b, u)
    ensures ReaderSafe(a, u) == ReaderSafe(b, u) && Overwritable(a, u) == Overwritable(b, u)
    ensures ReferenceIn(a, u) == ReferenceIn(b, u)
  {
  }

  /** The provenance a submission leaves: the user write, then the location writes. */
  lemma UserThenLocationStamped(t: Task, env: Lookups)
    requires Truthy(env.practitioner.id)
    ensures var byUser := SetupLastRegUser(t, env.spec, env.practitionerRef, env.now);
            var located := SetupLastRegLocation(
              byUser, env.spec, env.practitioner, env.officeLocationId, env.primaryLocationId, env.notification);
            ProvenanceStamped(t.extension, located.value.extension, env, env.notification)
  {
    var spec := env.spec;
    var location, office, user := LastLocationUrl(spec), LastOfficeUrl(spec), LastUserUrl(spec);
    var exts := t.extension.GetOr([]);
    ProvenanceUrlsDistinct(spec);
    var byUser := SetupLastRegUser(t, spec, env.practitionerRef, env.now);
    var e1 := byUser.extension.value;
    SameSlotSameReading(e1, exts, location);
    SameSlotSameReading(e1, exts, office);
    var located := SetupLastRegLocation(
      byUser, spec, env.practitioner, env.officeLocationId, env.primaryLocationId, env.notification).value;
    SameSlotSameReading(located.extension.value, e1, user);
  }

  /**
    `modifyRegistrationBundle`: bundle guard, tracking id, then the Task
    steps in source order; the first error aborts.
   */
  function ModifyRegistrationBundle(b: Bundle, env: Lookups): (r: Result<Bundle, Error>)
    ensures r.Failure? <==>
              !ValidBundle(b) || EmptyCoding(SelectOrCreateTask(b, env.taskTemplate).code) ||
              !Truthy(env.practitioner.id)
    ensures r.Failure? ==>
              r.error == (if !ValidBundle(b) then InvalidBundle
                          else if EmptyCoding(SelectOrCreateTask(b, env.taskTemplate).code) then RuntimeTypeError
                          else InvalidPractitioner)
    ensures r.Success? ==>
              && ValidBundle(r.value) && r.value.task.Some?
              && Composition(r.value).identifier.Some?
              && Composition(r.value).identifier.value.value == Some(env.trackingId)
              && IdentifierValue(r.value.task.value, IdentifierSystem(env.spec, TrackingIdName(env.event))) ==
                   Some(env.trackingId)
              && RegStatus(r.value.task.value, env.spec) == Some(SubmissionStatus(env))
              && r.value.task.value.lastModified == Some(env.now)
    ensures r.Success? ==>
              var before, after := SelectOrCreateTask(b, env.taskTemplate), r.value.task.value;
              && HasCoding(after.code) && |after.code.value.coding.value| > 0
              && after.code.value.coding.value[0].code == Some(env.event.Code())
              && after.id == before.id
              && NotesAuthored(before.note, after.note, env.practitionerRef)
              && ProvenanceStamped(before.extension, after.extension, env, env.notification)
    ensures r.Success? ==>
              && |r.value.entry.value| == |b.entry.value|
              && (forall j :: 1 <= j < |b.entry.value| ==> r.value.entry.value[j] == b.entry.value[j])
              && Composition(r.value).identifier.value.system ==
                   (if Composition(b).identifier.None? then Some(UriSystem) else Composition(b).identifier.value.system)
              && Composition(r.value).(identifier := Composition(b).identifier) == Composition(b)
    ensures r.Success? ==>
              var before, after := SelectOrCreateTask(b, env.taskTemplate), r.value.task.value;
              && after.identifier.Some?
              && IdentifierFiled(before.identifier.GetOr([]), after.identifier.value,
                                 IdentifierSystem(env.spec, TrackingIdName(env.event)), env.trackingId)
              && Submitted(before.(identifier := after.identifier), after, env)
  {
    if !ValidBundle(b) then Failure(InvalidBundle)
    else
      match SetTrackingId(b, env.spec, env.event, env.trackingId, env.taskTemplate)
      case Failure(e) => Failure(e)
      case Success(tracked) =>
        var submitted :- SubmitTask(tracked.task.value, env);
        Success(tracked.(task := Some(submitted)))
  }

  /**
    What a status mark writes into the Task: `status` filed as the
    reg-status coding, the provenance references and the time; nothing
    else changes. The provenance reads back as `ProvenanceStamped` states
    it for a write that is never a notification.
   */
  ghost predicate StatusMarked(t: Task, t': Task, status: string, env: Lookups) {
    && HasCoding(t'.businessStatus)
    && CodingFiled(Codings(t.businessStatus), t'.businessStatus.value.coding.value, RegStatusSystem(env.spec), status)
    && RegStatus(t', env.spec) == Some(status)
    && t'.extension.Some?
    && ExtensionsWritten(t.extension.GetOr([]), t'.extension.value, ProvenanceRefs(env))
    && ProvenanceStamped(t.extension, t'.extension, env, false)
    && t'.lastModified == Some(env.now)
    && t'.(businessStatus := t.businessStatus, extension := t.extension, lastModified := t.lastModified) == t
  }

  /**
    The tail shared by the three `markBundleAs...` entry points: the status
    write, then last location (never as a notification), then last user.
   */
  function MarkStatus(t: Task, status: string, env: Lookups): (r: Result<Task, Error>)
    requires status != ""
    ensures r.Failure? <==> !Truthy(env.practitioner.id)
    ensures r.Failure? ==> r.error == InvalidPractitioner
    ensures r.Success? ==> StatusMarked(t, r.value, status, env)
  {
    match SetupRegistrationWorkflow(t, env.spec, env.tokenStatus, Some(status), env.persisted)
    case Failure(e) => Failure(e)
    case Success(progressed) =>
      var located :- SetupLastRegLocation(
        progressed, env.spec, env.practitioner, env.officeLocationId, env.primaryLocationId, false);
      var marked := SetupLastRegUser(located, env.spec, env.practitionerRef, env.now);
      ProvenanceUrlsDistinct(env.spec);
      ProvenanceRefsSplit(env);
      ExtensionsWrittenCompose(
        t.extension.GetOr([]), located.extension.value, marked.extension.value,
        LocationRefs(env.spec, env.officeLocationId, env.primaryLocationId),
        map[LastUserUrl(env.spec) := env.practitionerRef]);
      LocationThenUserStamped(progressed, env);
      Success(marked)
  }

  /** The provenance a status mark leaves: the location writes (never as a notification), then the user write. */
  lemma LocationThenUserStamped(t: Task, env: Lookups)
    requires Truthy(env.practitioner.id)
    ensures var located := SetupLastRegLocation(
              t, env.spec, env.practitioner, env.officeLocationId, env.primaryLocationId, false);
            var marked := SetupLastRegUser(located.value, env.spec, env.practitionerRef, env.now);
            ProvenanceStamped(t.extension, marked.extension, env, false)
  {
    var spec := env.spec;
    var location, office, user := LastLocationUrl(spec), LastOfficeUrl(spec), LastUserUrl(spec);
    var exts := t.extension.GetOr([]);
    ProvenanceUrlsDistinct(spec);
    var located := SetupLastRegLocation(
      t, spec, env.practitioner, env.officeLocationId, env.primaryLocationId, false).value;
    var e1 := located.extension.value;
    SameSlotSameReading(e1, exts, user);
    var marked := SetupLastRegUser(located, spec, env.practitionerRef, env.now);
    SameSlotSameReading(marked.extension.value, e1, location);
    SameSlotSameReading(marked.extension.value, e1, office);
  }


  /** `markBundleAsValidated`. A bundle without a Task fails at the status write. */
  function MarkBundleAsValidated(b: Bundle, env: Lookups): (r: Result<Bundle, Error>)
    ensures r.Failure? <==> b.task.None? || !Truthy(env.practitioner.id)
    ensures r.Failure? ==> r.error == (if b.task.None? then RuntimeTypeError else InvalidPractitioner)
    ensures r.Success? ==>
              && r.value.entry == b.entry && r.value.task.Some?
              && RegStatus(r.value.task.value, env.spec) == Some(StatusValidated)
              && r.value.task.value.lastModified == Some(env.now)
    ensures r.Success? ==> StatusMarked(b.task.value, r.value.task.value, StatusValidated, env)
  {
    match b.task
    case None => Failure(RuntimeTypeError)
    case Some(t) =>
      var marked :- MarkStatus(t, StatusValidated, env);
      Success(b.(task := Some(marked)))
  }

  /**
    `markBundleAsRegistered`: the event's registration number is filed first;
    a bundle without a Task fails there.
   */
  function MarkBundleAsRegistered(b: Bundle, env: Lookups): (r: Result<Bundle, Error>)
    ensures r.Failure? <==> b.task.None? || !Truthy(env.practitioner.id)
    ensures r.Failure? ==> r.error == (if b.task.None? then InvalidTask else InvalidPractitioner)
    ensures r.Success? ==>
              && r.value.entry == b.entry && r.value.task.Some?
              && RegStatus(r.value.task.value, env.spec) == Some(StatusRegistered)
              && IdentifierValue(r.value.task.value, IdentifierSystem(env.spec, RegistrationNumberName(env.event))) ==
                   Some(env.registrationNumber)
              && r.value.task.value.lastModified == Some(env.now)
    ensures r.Success? ==>
              var t, t' := b.task.value, r.value.task.value;
              var tracking := IdentifierSystem(env.spec, TrackingIdName(env.event));
              && t'.identifier.Some?
              && IdentifierFiled(t.identifier.GetOr([]), t'.identifier.value,
                                 IdentifierSystem(env.spec, RegistrationNumberName(env.event)), env.registrationNumber)
              && IdentifierValue(t', tracking) == IdentifierValue(t, tracking)
              && StatusMarked(t.(identifier := t'.identifier), t', StatusRegistered, env)
  {
    var numbered :- PushRN(b.task, env.spec, RegistrationNumberName(env.event), env.registrationNumber);
    var marked :- MarkStatus(numbered, StatusRegistered, env);
    TrackingAndRegistrationSystemsDistinct(env.spec, env.event);
    Success(b.(task := Some(marked)))
  }

  /** `markBundleAsCertified`. A bundle without a Task fails at the status write. */
  function MarkBundleAsCertified(b: Bundle, env: Lookups): (r: Result<Bundle, Error>)
    ensures r.Failure? <==> b.task.None? || !Truthy(env.practitioner.id)
    ensures r.Failure? ==> r.error == (if b.task.None? then RuntimeTypeError else InvalidPractitioner)
    ensures r.Success? ==>
              && r.value.entry == b.entry && r.value.task.Some?
              && RegStatus(r.value.task.value, env.spec) == Some(StatusCertified)
              && r.value.task.value.lastModified == Some(env.now)
    ensures r.Success? ==> StatusMarked(b.task.value, r.value.task.value, StatusCertified, env)
  {
    match b.task
    case None => Failure(RuntimeTypeError)
    case Some(t) =>
      var marked :- MarkStatus(t, StatusCertified, env);
      Success(b.(task := Some(marked)))
  }
}

=== FILE: bundle_modifier_lemmas.dfy ===
/**
  Properties of the registration bundle modifier that relate several calls:
  what the entry points leave for a later reader, idempotence of the
  tracking-id and note-author steps, and the behaviour of the duplicate
  status guard as written.
 */
module BundleModifierLemmas {
  import opened Wrappers
  import opened Js
  import opened Fhir
  import Keyed
  import opened BundleModifier

  /** Filing the same identifier value twice is the same as filing it once. */
  lemma SetIdentifierIdempotent(t: Task, system: string, v: string)
    ensures SetIdentifier(SetIdentifier(t, system, v), system, v) == SetIdentifier(t, system, v)
  {
    var ids := t.identifier.GetOr([]);
    var k := Some(system);
    var added := Identifier(k, Some(v));
    Keyed.UpsertIdempotent(ids, IdentifierKey, k, WithValue(v), added);
  }

  /**
    Tracking-id assignment is idempotent: a second call with the same id
    changes nothing, so no identifier slot is ever duplicated by a retry.
   */
  lemma SetTrackingIdIdempotent(b: Bundle, spec: string, event: EventType, trackingId: string, template: Task)
    requires ValidBundle(b)
    ensures var once := SetTrackingId(b, spec, event, trackingId, template).value;
            SetTrackingId(once, spec, event, trackingId, template) == Success(once)
  {
    var once := SetTrackingId(b, spec, event, trackingId, template).value;
    var system := IdentifierSystem(spec, TrackingIdName(event));
    SetIdentifierIdempotent(SelectOrCreateTask(b, template), system, trackingId);
    var twice := SetTrackingId(once, spec, event, trackingId, template).value;
    assert Composition(twice) == Composition(once);
    assert twice.entry.value == once.entry.value;
  }

  /**
    Tracking-id assignment run twice with two ids leaves one tracking-id
    slot on the Task, holding the second id, and the Composition agrees.
   */
  lemma SetTrackingIdTwiceKeepsOneSlot(
    b: Bundle, spec: string, event: EventType, first: string, second: string, template: Task)
    requires ValidBundle(b)
    requires Keyed.Count(SelectOrCreateTask(b, template).identifier.GetOr([]), IdentifierKey,
                         Some(IdentifierSystem(spec, TrackingIdName(event)))) <= 1
    ensures var once := SetTrackingId(b, spec, event, first, template).value;
            var twice := SetTrackingId(once, spec, event, second, template).value;
            && Keyed.Count(twice.task.value.identifier.value, IdentifierKey,
                           Some(IdentifierSystem(spec, TrackingIdName(event)))) == 1
            && IdentifierValue(twice.task.value, IdentifierSystem(spec, TrackingIdName(event))) == Some(second)
            && Composition(twice).identifier.value.value == Some(second)
  {
  }

  /**
    A birth declaration whose Composition has no identifier: afterwards the
    Composition carries the id under the RFC 3986 URI system and the Task
    carries it under `<spec>id/birth-tracking-id`.
   */
  lemma BirthTrackingIdScenario(spec: string, trackingId: string, task: Task)
    requires task.identifier.None?
    ensures var b := Bundle(Some([Entry(Some(Resource("Composition", None)))]), Some(task));
            var r := SetTrackingId(b, spec, Birth, trackingId, task);
            && r.Success?
            && Composition(r.value).identifier == Some(Identifier(Some(UriSystem), Some(trackingId)))
            && r.value.task.value.identifier ==
                 Some([Identifier(Some(spec + "id/birth-tracking-id"), Some(trackingId))])
  {
    var b := Bundle(Some([Entry(Some(Resource("Composition", None)))]), Some(task));
    var r := SetTrackingId(b, spec, Birth, trackingId, task);
    var system := IdentifierSystem(spec, TrackingIdName(Birth));
    assert system == spec + "id/birth-tracking-id";
    var added := Identifier(Some(system), Some(trackingId));
    assert Keyed.Upsert([], IdentifierKey, Some(system), WithValue(trackingId), added) == [added];
  }

  /** Event-type stamping is idempotent. */
  lemma SetupRegistrationTypeIdempotent(t: Task, spec: string, event: EventType)
    requires !EmptyCoding(t.code)
    ensures var once := SetupRegistrationType(t, spec, event);
            SetupRegistrationType(once, spec, event) == once
  {
    var once := SetupRegistrationType(t, spec, event);
    var cs := once.code.value.coding.value;
    assert cs[0 := cs[0].(code := Some(event.Code()))] == cs;
  }

  /** The status written as CERTIFIED makes the duplicate check return before any lookup. */
  lemma CertifiedTargetSkipsLookup(t: Task, spec: string)
    ensures DuplicateCheckFetch(SetRegStatus(t, spec, StatusCertified), spec).None?
  {
    var r := SetRegStatus(t, spec, StatusCertified);
    assert RegStatusCoding(r, spec).Some? && RegStatusCoding(r, spec).value.code == Some(StatusCertified);
  }

  /**
    As written, the duplicate check compares a string with a coding record
    and so never raises, whatever the stored Task holds.
   */
  lemma DuplicateGuardNeverRaises(t: Task, spec: string, persisted: Option<Task>)
    ensures CheckForDuplicateStatusUpdate(t, spec, persisted) == Pass
  {
    match DuplicateCheckFetch(t, spec)
    case None =>
    case Some(_) =>
      var regStatusCode := RegStatusCoding(t, spec).value;
      var existing := match persisted case None => None case Some(p) => RegStatusCoding(p, spec);
      if existing.Some? {
        assert !StrictEquals(JsOf(existing.value.code), Obj(regStatusCode));
      }
  }

  /**
    A persisted Task already DECLARED, submitted again as DECLARED: the guard
    fetches the stored Task and still lets the write through.
   */
  lemma DeclaredTwiceIsNotRejected(spec: string)
    ensures var coding := Coding(Some(RegStatusSystem(spec)), Some(StatusDeclared));
            var t := Task(Some("t1"), None, None, Some(CodeableConcept(Some([coding]))), None, None, None);
            && DuplicateCheckFetch(t, spec) == Some("/Task/t1")
            && CheckForDuplicateStatusUpdate(t, spec, Some(t)) == Pass
  {
    var coding := Coding(Some(RegStatusSystem(spec)), Some(StatusDeclared));
    var t := Task(Some("t1"), None, None, Some(CodeableConcept(Some([coding]))), None, None, None);
    assert Keyed.FindFirst([coding], CodingKey, Some(RegStatusSystem(spec))) == Some(0);
    assert RegStatusCoding(t, spec) == Some(coding);
    assert "/Task/" + "t1" == "/Task/t1";
    DuplicateGuardNeverRaises(t, spec, Some(t));
  }

  /**
    CERTIFIED does not block later transitions: with a stored Task that is
    CERTIFIED, marking the bundle validated or registered still succeeds and
    files the new status.
   */
  lemma CertifiedIsNotTerminal(b: Bundle, env: Lookups)
    requires b.task.Some? && Truthy(env.practitioner.id)
    requires env.persisted.Some? && RegStatus(env.persisted.value, env.spec) == Some(StatusCertified)
    ensures MarkBundleAsValidated(b, env).Success?
    ensures RegStatus(MarkBundleAsValidated(b, env).value.task.value, env.spec) == Some(StatusValidated)
    ensures MarkBundleAsRegistered(b, env).Success?
    ensures RegStatus(MarkBundleAsRegistered(b, env).value.task.value, env.spec) == Some(StatusRegistered)
  {
  }

  /**
    While the first extension under `url` carries a reference, the
    provenance write keeps at most one extension under `url`.
   */
  lemma SetReferenceKeepsSlotUnique(exts: seq<Extension>, url: string, ref: string, overwrite: bool)
    requires ReaderSafe(exts, url) && Keyed.Count(exts, ExtensionKey, url) <= 1
    ensures Keyed.Count(SetReference(exts, url, ref, overwrite), ExtensionKey, url) <= 1
  {
    SetReferenceCount(exts, url, ref, overwrite);
    Keyed.CountZeroIffAbsent(exts, ExtensionKey, url);
  }

  /**
    A `regLastUser` extension without a `valueReference` is not overwritten:
    a second one is appended behind it, and a reader still finds no user.
   */
  lemma LastUserWithoutReferenceIsDuplicated(spec: string, practitionerRef: string, now: string)
    ensures var stale := Extension(LastUserUrl(spec), None);
            var t := Task(None, None, None, None, Some([stale]), None, None);
            var r := SetupLastRegUser(t, spec, practitionerRef, now);
            && r.extension == Some([stale, NewReference(LastUserUrl(spec), practitionerRef)])
            && Keyed.Count(r.extension.value, ExtensionKey, LastUserUrl(spec)) == 2
            && ReferenceOf(r, LastUserUrl(spec)) == None
  {
    var stale := Extension(LastUserUrl(spec), None);
    var added := NewReference(LastUserUrl(spec), practitionerRef);
    assert Keyed.FindFirst([stale], ExtensionKey, LastUserUrl(spec)) == Some(0);
    assert Keyed.FindFirst([stale, added], ExtensionKey, LastUserUrl(spec)) == Some(0);
    assert [stale] + [added] == [stale, added];
    assert [stale, added][..1] == [stale] && [stale][..0] == [];
    assert Keyed.Count([stale], ExtensionKey, LastUserUrl(spec)) == 1;
  }

  /**
    A Task with no extensions, stamped for practitioner P1 whose office
    location is L2 and whose primary office is L1, ends with exactly a
    `regLastLocation` reference to Location/L2 followed by a `regLastOffice`
    reference to Location/L1.
   */
  lemma LastLocationScenario(spec: string)
    ensures var t := Task(None, None, None, None, None, None, None);
            var r := SetupLastRegLocation(t, spec, Practitioner(Some("P1")), "L2", "L1", false);
            && r.Success?
            && r.value.extension == Some([NewReference(LastLocationUrl(spec), LocationRef("L2")),
                                          NewReference(LastOfficeUrl(spec), LocationRef("L1"))])
  {
    ProvenanceUrlsDistinct(spec);
    var first := NewReference(LastLocationUrl(spec), LocationRef("L2"));
    var second := NewReference(LastOfficeUrl(spec), LocationRef("L1"));
    assert SetReference([], LastLocationUrl(spec), LocationRef("L2"), true) == [first];
    assert Keyed.FindFirst([first], ExtensionKey, LastOfficeUrl(spec)) == None;
    assert SetReference([first], LastOfficeUrl(spec), LocationRef("L1"), true) == [first, second];
  }

  /** Note-author stamping is idempotent: a stamped note keeps its author. */
  lemma {:induction false} StampNotesIdempotent(notes: seq<Annotation>, author: string)
    ensures StampNotes(StampNotes(notes, author), author) == StampNotes(notes, author)
  {
    var once := StampNotes(notes, author);
    var twice := StampNotes(once, author);
    forall j | 0 <= j < |once|
      ensures twice[j] == once[j]
    {
      if !Truthy(notes[j].authorString) {
        assert once[j] == Annotation(notes[j].text, Some(author));
      }
    }
    assert twice == once;
  }

  lemma SetupAuthorOnNotesIdempotent(t: Task, author: string)
    ensures SetupAuthorOnNotes(SetupAuthorOnNotes(t, author), author) == SetupAuthorOnNotes(t, author)
  {
    if t.note.Some? {
      StampNotesIdempotent(t.note.value, author);
    }
  }
}

=== FILE: fhir.dfy ===
/**
  The HL7 FHIR resource shapes the registration bundle modifier touches,
  reduced to the fields it reads or writes, together with the namespaced
  keys it files its records under and the lookups a later reader performs.

  Every FHIR field that may be missing is an `Option`; a JavaScript test
  `!x` on a string field is `!Truthy(x)` (absent and empty are both falsy),
  while `!x` on an object or array field only tests for absence.
 */
module Fhir {
  import opened Wrappers
  import Keyed

  /** The event kinds of `EVENT_TYPE`, with the string `eventType.toString()` yields. */
  datatype EventType = Birth | Death {
    function Code(): string {
      match this
      case Birth => "BIRTH"
      case Death => "DEATH"
    }
  }

  /**
    Registration status codes. The constants module that defines them is not
    part of this model; each code is written as its own name.
   */
  const StatusInProgress: string := "IN_PROGRESS"
  const StatusDeclared: string := "DECLARED"
  const StatusValidated: string := "VALIDATED"
  const StatusRegistered: string := "REGISTERED"
  const StatusCertified: string := "CERTIFIED"

  /** The identifier system of a Composition's primary identifier: a URI (RFC 3986). */
  const UriSystem: string := "urn:ietf:rfc:3986"

  datatype Identifier = Identifier(system: Option<string>, value: Option<string>)
  datatype Coding = Coding(system: Option<string>, code: Option<string>)
  datatype CodeableConcept = CodeableConcept(coding: Option<seq<Coding>>)
  datatype Reference = Reference(reference: Option<string>)
  datatype Extension = Extension(url: string, valueReference: Option<Reference>)
  datatype Annotation = Annotation(text: string, authorString: Option<string>)

  /** The workflow resource whose status and provenance the lifecycle steps stamp. */
  datatype Task = Task(
    id: Option<string>,
    identifier: Option<seq<Identifier>>,
    code: Option<CodeableConcept>,
    businessStatus: Option<CodeableConcept>,
    extension: Option<seq<Extension>>,
    note: Option<seq<Annotation>>,
    lastModified: Option<string>)

  datatype Practitioner = Practitioner(id: Option<string>)

  /** A bundle entry's resource; entry 0 is read as the Composition. */
  datatype Resource = Resource(resourceType: string, identifier: Option<Identifier>)
  datatype Entry = Entry(resource: Option<Resource>)

  /**
    A registration bundle. `entry` stands for the bundle's entries other
    than the Task (entry 0 is the Composition); the Task entry, which the
    repository's template helpers locate inside the bundle, is kept in its
    own field because their search is not part of this model.
   */
  datatype Bundle = Bundle(entry: Option<seq<Entry>>, task: Option<Task>)

  // Namespaced keys, all under the specification URL `spec`.

  function IdentifierSystem(spec: string, name: string): string {
    spec + "id/" + name
  }

  function TypesSystem(spec: string): string {
    spec + "types"
  }

  function RegStatusSystem(spec: string): string {
    spec + "reg-status"
  }

  function ExtensionUrl(spec: string, name: string): string {
    spec + "extension/" + name
  }

  function TrackingIdName(event: EventType): string {
    if event == Birth then "birth-tracking-id" else "death-tracking-id"
  }

  function RegistrationNumberName(event: EventType): string {
    if event == Birth then "birth-registration-number" else "death-registration-number"
  }

  function LastLocationUrl(spec: string): string {
    ExtensionUrl(spec, "regLastLocation")
  }

  function LastOfficeUrl(spec: string): string {
    ExtensionUrl(spec, "regLastOffice")
  }

  function LastUserUrl(spec: string): string {
    ExtensionUrl(spec, "regLastUser")
  }

  function LocationRef(locationId: string): string {
    "Location/" + locationId
  }

  // Keys of the three keyed lists.

  function IdentifierKey(i: Identifier): Option<string> {
    i.system
  }

  function CodingKey(c: Coding): Option<string> {
    c.system
  }

  function ExtensionKey(e: Extension): string {
    e.url
  }

  // What a later reader of the Task finds: the first record under a key.

  /** The value of the first identifier filed under `system`. */
  function IdentifierValue(t: Task, system: string): Option<string> {
    match t.identifier
    case None => None
    case Some(ids) =>
      match Keyed.First(ids, IdentifierKey, Some(system))
      case None => None
      case Some(i) => i.value
  }

  /** The code of the first business-status coding filed under the reg-status system. */
  function RegStatus(t: Task, spec: string): Option<string> {
    match t.businessStatus
    case None => None
    case Some(bs) =>
      match bs.coding
      case None => None
      case Some(cs) =>
        match Keyed.First(cs, CodingKey, Some(RegStatusSystem(spec)))
        case None => None
        case Some(c) => c.code
  }

  /** The first extension filed under `url`. */
  function Slot(exts: seq<Extension>, url: string): Option<Extension> {
    Keyed.First(exts, ExtensionKey, url)
  }

  /** The reference held by the first extension filed under `url`. */
  function ReferenceIn(exts: seq<Extension>, url: string): Option<string> {
    match Slot(exts, url)
    case Some(Extension(_, Some(ref))) => ref.reference
    case _ => None
  }

  function ReferenceOf(t: Task, url: string): Option<string> {
    ReferenceIn(t.extension.GetOr([]), url)
  }

  /**
    The first extension under `url` can be overwritten in place: it exists
    and carries a `valueReference`.
   */
  predicate Overwritable(exts: seq<Extension>, url: string) {
    Slot(exts, url).Some? && Slot(exts, url).value.valueReference.Some?
  }

  /**
    A reader looking up `url` sees whatever was last written there: either no
    extension has that url, or the first one carries a `valueReference`.
   */
  predicate ReaderSafe(exts: seq<Extension>, url: string) {
    Slot(exts, url).None? || Overwritable(exts, url)
  }

  /** The three provenance urls are distinct for every specification URL. */
  lemma ProvenanceUrlsDistinct(spec: string)
    ensures LastLocationUrl(spec) != LastOfficeUrl(spec)
    ensures LastLocationUrl(spec) != LastUserUrl(spec)
    ensures LastOfficeUrl(spec) != LastUserUrl(spec)
  {
  }

  /** An event's tracking id and its registration number are filed under different systems. */
  lemma TrackingAndRegistrationSystemsDistinct(spec: string, event: EventType)
    ensures IdentifierSystem(spec, TrackingIdName(event)) != IdentifierSystem(spec, RegistrationNumberName(event))
  {
    assert |TrackingIdName(event)| < |RegistrationNumberName(event)|;
  }
}

=== FILE: js.dfy ===
/** The JavaScript semantics the modelled TypeScript relies on. */
module Js {
  import opened Wrappers

  /**
    Truthiness of an optional string, as `if (x)` and `!x` test it: absent
    (`undefined`, `null`) and the empty string are both falsy.
   */
  predicate Truthy(s: Option<string>) {
    s.Some? && s.value != ""
  }
}

=== FILE: keyed.dfy ===
/**
  The keyed association list behind every identifier, coding and extension
  update of the bundle modifier: a list of records, each carrying a key
  (`system` or `url`), searched with JavaScript's `Array.prototype.find`
  (first match wins) and then updated in place or appended to.
 */
module Keyed {
  import opened Wrappers

  /** Index of the first element whose key is `k`, as `Array.prototype.find` locates it. */
  function FindFirst<T, K(==)>(xs: seq<T>, keyOf: T -> K, k: K): (r: Option<nat>)
    ensures r.Some? ==> r.value < |xs| && keyOf(xs[r.value]) == k
    ensures r.Some? ==> forall j :: 0 <= j < r.value ==> keyOf(xs[j]) != k
    ensures r.None? <==> forall j :: 0 <= j < |xs| ==> keyOf(xs[j]) != k
    decreases |xs|
  {
    if |xs| == 0 then None
    else if keyOf(xs[0]) == k then Some(0)
    else
      match FindFirst(xs[1..], keyOf, k)
      case None =>
        assert forall j :: 1 <= j < |xs| ==> xs[j] == xs[1..][j - 1];
        None
      case Some(i) =>
        assert forall j :: 1 <= j <= i ==> xs[j] == xs[1..][j - 1];
        Some(i + 1)
  }

  /** The first element whose key is `k`, if any. */
  function First<T, K(==)>(xs: seq<T>, keyOf: T -> K, k: K): (r: Option<T>)
    ensures r.Some? ==> keyOf(r.value) == k && r.value in xs
    ensures r.None? <==> forall j :: 0 <= j < |xs| ==> keyOf(xs[j]) != k
  {
    match FindFirst(xs, keyOf, k)
    case None => None
    case Some(i) => Some(xs[i])
  }

  /** Number of elements whose key is `k`. */
  function Count<T, K(==)>(xs: seq<T>, keyOf: T -> K, k: K): nat
    decreases |xs|
  {
    if |xs| == 0 then 0
    else (if keyOf(xs[|xs| - 1]) == k then 1 else 0) + Count(xs[..|xs| - 1], keyOf, k)
  }

  /**
    Find-then-update-or-append: the first element keyed `k` is replaced by
    `update` of itself; when there is none, `added` is appended.
   */
  function Upsert<T, K(==)>(xs: seq<T>, keyOf: T -> K, k: K, update: T -> T, added: T): (r: seq<T>)
    ensures FindFirst(xs, keyOf, k).None? ==> |r| == |xs| + 1 && r[..|xs|] == xs && r[|xs|] == added
    ensures FindFirst(xs, keyOf, k).Some? ==> |r| == |xs|
    ensures FindFirst(xs, keyOf, k).Some? ==>
              var i := FindFirst(xs, keyOf, k).value;
              r[i] == update(xs[i]) && forall j :: 0 <= j < |xs| && j != i ==> r[j] == xs[j]
  {
    match FindFirst(xs, keyOf, k)
    case None => xs + [added]
    case Some(i) => xs[i := update(xs[i])]
  }

  /** `FindFirst` is determined by the properties it promises. */
  lemma FindFirstIs<T, K>(xs: seq<T>, keyOf: T -> K, k: K, r: Option<nat>)
    requires r.Some? ==> r.value < |xs| && keyOf(xs[r.value]) == k
    requires r.Some? ==> forall j :: 0 <= j < r.value ==> keyOf(xs[j]) != k
    requires r.None? ==> forall j :: 0 <= j < |xs| ==> keyOf(xs[j]) != k
    ensures FindFirst(xs, keyOf, k) == r
  {
    var f := FindFirst(xs, keyOf, k);
    if f.Some? && r.Some? {
      assert keyOf(xs[f.value]) == k && keyOf(xs[r.value]) == k;
    }
  }

  /** Replacing an element by one with the same key does not move any first match. */
  lemma FindFirstAfterReplace<T, K>(xs: seq<T>, keyOf: T -> K, k: K, i: nat, y: T)
    requires i < |xs| && keyOf(y) == keyOf(xs[i])
    ensures FindFirst(xs[i := y], keyOf, k) == FindFirst(xs, keyOf, k)
  {
    var ys := xs[i := y];
    assert forall j :: 0 <= j < |xs| ==> keyOf(ys[j]) == keyOf(xs[j]);
    FindFirstIs(ys, keyOf, k, FindFirst(xs, keyOf, k));
  }

  /** Appending finds the new element only when nothing earlier matched. */
  lemma FindFirstAfterAppend<T, K>(xs: seq<T>, keyOf: T -> K, k: K, y: T)
    ensures FindFirst(xs + [y], keyOf, k) ==
              if FindFirst(xs, keyOf, k).Some? then FindFirst(xs, keyOf, k)
              else if keyOf(y) == k then Some(|xs|)
              else None
  {
    var ys := xs + [y];
    var expected :=
      if FindFirst(xs, keyOf, k).Some? then FindFirst(xs, keyOf, k)
      else if keyOf(y) == k then Some(|xs|)
      else None;
    assert forall j :: 0 <= j < |xs| ==> ys[j] == xs[j];
    FindFirstIs(ys, keyOf, k, expected);
  }

  /**
    A list that keeps the keys of `xs` position by position and adds only
    elements with other keys has the same first match for `k`.
   */
  lemma FindFirstAfterExtend<T, K>(xs: seq<T>, ys: seq<T>, keyOf: T -> K, k: K)
    requires |xs| <= |ys|
    requires forall j :: 0 <= j < |xs| ==> keyOf(ys[j]) == keyOf(xs[j])
    requires forall j :: |xs| <= j < |ys| ==> keyOf(ys[j]) != k
    ensures FindFirst(ys, keyOf, k) == FindFirst(xs, keyOf, k)
  {
    FindFirstIs(ys, keyOf, k, FindFirst(xs, keyOf, k));
  }

  /** After an upsert, a lookup of `k` finds the slot just written. */
  lemma LookupAfterUpsert<T, K>(xs: seq<T>, keyOf: T -> K, k: K, update: T -> T, added: T)
    requires forall x :: keyOf(update(x)) == keyOf(x)
    requires keyOf(added) == k
    ensures First(Upsert(xs, keyOf, k, update, added), keyOf, k) ==
              match FindFirst(xs, keyOf, k)
              case None => Some(added)
              case Some(i) => Some(update(xs[i]))
  {
    var r := Upsert(xs, keyOf, k, update, added);
    match FindFirst(xs, keyOf, k)
    case None =>
      FindFirstAfterAppend(xs, keyOf, k, added);
      assert r == xs + [added];
    case Some(i) =>
      FindFirstAfterReplace(xs, keyOf, k, i, update(xs[i]));
      assert r == xs[i := update(xs[i])];
  }

  /** An upsert keyed `k` leaves every other key's first match where it was. */
  lemma UpsertFrame<T, K>(xs: seq<T>, keyOf: T -> K, k: K, update: T -> T, added: T, k2: K)
    requires forall x :: keyOf(update(x)) == keyOf(x)
    requires keyOf(added) == k && k2 != k
    ensures First(Upsert(xs, keyOf, k, update, added), keyOf, k2) == First(xs, keyOf, k2)
  {
    var r := Upsert(xs, keyOf, k, update, added);
    match FindFirst(xs, keyOf, k)
    case None =>
      FindFirstAfterAppend(xs, keyOf, k2, added);
      assert r == xs + [added];
    case Some(i) =>
      FindFirstAfterReplace(xs, keyOf, k2, i, update(xs[i]));
      assert r == xs[i := update(xs[i])];
  }

  /** An upsert keyed `k` leaves the first match of every other key where it was. */
  lemma UpsertFrameAll<T, K>(xs: seq<T>, keyOf: T -> K, k: K, update: T -> T, added: T)
    requires forall x :: keyOf(update(x)) == keyOf(x)
    requires keyOf(added) == k
    ensures forall k2 :: k2 != k ==> First(Upsert(xs, keyOf, k, update, added), keyOf, k2) == First(xs, keyOf, k2)
  {
    forall k2 | k2 != k
      ensures First(Upsert(xs, keyOf, k, update, added), keyOf, k2) == First(xs, keyOf, k2)
    {
      UpsertFrame(xs, keyOf, k, update, added, k2);
    }
  }

  /** Replacing an element by one with the same key leaves the first match of every other key. */
  lemma FirstAfterReplaceOther<T, K>(xs: seq<T>, keyOf: T -> K, i: nat, y: T)
    requires i < |xs| && keyOf(y) == keyOf(xs[i])
    ensures forall k2 :: k2 != keyOf(y) ==> First(xs[i := y], keyOf, k2) == First(xs, keyOf, k2)
  {
    forall k2 | k2 != keyOf(y)
      ensures First(xs[i := y], keyOf, k2) == First(xs, keyOf, k2)
    {
      FindFirstAfterReplace(xs, keyOf, k2, i, y);
    }
  }

  /** Appending an element leaves the first match of every other key. */
  lemma FirstAfterAppendOther<T, K>(xs: seq<T>, keyOf: T -> K, y: T)
    ensures forall k2 :: k2 != keyOf(y) ==> First(xs + [y], keyOf, k2) == First(xs, keyOf, k2)
  {
    forall k2 | k2 != keyOf(y)
      ensures First(xs + [y], keyOf, k2) == First(xs, keyOf, k2)
    {
      FindFirstAfterAppend(xs, keyOf, k2, y);
    }
  }

  lemma {:induction false} CountAppend<T, K>(xs: seq<T>, keyOf: T -> K, k: K, y: T)
    ensures Count(xs + [y], keyOf, k) == Count(xs, keyOf, k) + (if keyOf(y) == k then 1 else 0)
  {
    assert (xs + [y])[..|xs|] == xs;
  }

  lemma {:induction false} CountReplace<T, K>(xs: seq<T>, keyOf: T -> K, k: K, i: nat, y: T)
    requires i < |xs| && keyOf(y) == keyOf(xs[i])
    ensures Count(xs[i := y], keyOf, k) == Count(xs, keyOf, k)
    decreases |xs|
  {
    var ys := xs[i := y];
    var n := |xs| - 1;
    if i == n {
      assert ys[..n] == xs[..n];
    } else {
      assert ys[..n] == xs[..n][i := y];
      CountReplace(xs[..n], keyOf, k, i, y);
    }
  }

  lemma {:induction false} CountZeroIffAbsent<T, K>(xs: seq<T>, keyOf: T -> K, k: K)
    ensures Count(xs, keyOf, k) == 0 <==> FindFirst(xs, keyOf, k).None?
    decreases |xs|
  {
    if |xs| > 0 {
      var n := |xs| - 1;
      CountZeroIffAbsent(xs[..n], keyOf, k);
      assert xs == xs[..n] + [xs[n]];
      FindFirstAfterAppend(xs[..n], keyOf, k, xs[n]);
    }
  }

  /**
    The upsert never duplicates a key: a key absent before occurs exactly once
    afterwards, and a key present before occurs as often as it did.
   */
  lemma CountAfterUpsert<T, K>(xs: seq<T>, keyOf: T -> K, k: K, update: T -> T, added: T)
    requires forall x :: keyOf(update(x)) == keyOf(x)
    requires keyOf(added) == k
    ensures Count(Upsert(xs, keyOf, k, update, added), keyOf, k) ==
              if Count(xs, keyOf, k) == 0 then 1 else Count(xs, keyOf, k)
  {
    CountZeroIffAbsent(xs, keyOf, k);
    match FindFirst(xs, keyOf, k)
    case None =>
      CountAppend(xs, keyOf, k, added);
      assert Upsert(xs, keyOf, k, update, added) == xs + [added];
    case Some(i) =>
      CountReplace(xs, keyOf, k, i, update(xs[i]));
      assert Upsert(xs, keyOf, k, update, added) == xs[i := update(xs[i])];
  }

  /** Upserting the same value twice is the same as upserting it once. */
  lemma UpsertIdempotent<T, K>(xs: seq<T>, keyOf: T -> K, k: K, update: T -> T, added: T)
    requires forall x :: keyOf(update(x)) == keyOf(x)
    requires forall x :: update(update(x)) == update(x)
    requires keyOf(added) == k && update(added) == added
    ensures Upsert(Upsert(xs, keyOf, k, update, added), keyOf, k, update, added) ==
            Upsert(xs, keyOf, k, update, added)
  {
    var once := Upsert(xs, keyOf, k, update, added);
    match FindFirst(xs, keyOf, k)
    case None =>
      FindFirstAfterAppend(xs, keyOf, k, added);
      assert once == xs + [added];
      assert FindFirst(once, keyOf, k) == Some(|xs|);
      assert once[|xs| := update(once[|xs|])] == once;
    case Some(i) =>
      FindFirstAfterReplace(xs, keyOf, k, i, update(xs[i]));
      assert once == xs[i := update(xs[i])];
      assert once[i := update(once[i])] == once;
  }
}

=== FILE: login_reducer.dfy ===
/**
  The login application's state machine: the redux-loop reducer that walks
  a user through username/password authentication, the SMS code step and
  the hand-over to the register application.

  A redux-loop `loop(state, cmd)` is a `Next(state, cmd)`; the commands it
  schedules (API calls, route pushes, `window.location.assign`) are values
  of `Cmd` and are never run here.
 */
module LoginReducer {
  import opened Wrappers
  import opened Js

  /** The step-one form payload, stored verbatim as `stepOneDetails`. */
  datatype StepOneDetails = StepOneDetails(username: string)

  datatype AuthenticationDetails = AuthenticationDetails(nonce: string, mobile: string)

  /**
    `LoginState`. `stepSubmitting` is the key the VERIFY_CODE_COMPLETED case
    writes although the state type does not declare it: absent initially.
   */
  datatype LoginState = LoginState(
    submitting: bool,
    token: string,
    authenticationDetails: AuthenticationDetails,
    submissionError: bool,
    resentSMS: bool,
    stepOneDetails: StepOneDetails,
    errorCode: Option<int>,
    stepSubmitting: Option<bool>)

  const InitialState: LoginState :=
    LoginState(false, "", AuthenticationDetails("", ""), false, false, StepOneDetails(""), None, None)

  /** The HTTP response an authentication failure may carry. */
  datatype HttpResponse = HttpResponse(status: Option<int>)

  /** The actions the reducer distinguishes; `Unknown` is every other action type. */
  datatype Action =
    | Authenticate(details: StepOneDetails)
    | AuthenticateValidate(validationCode: int)
    | AuthenticationFailed(response: Option<HttpResponse>)
    | AuthenticationCompleted(authToken: Option<string>, nonce: string, mobile: string)
    | ResendSms
    | ResendSmsFailed
    | ResendSmsCompleted(nonce: string)
    | VerifyCode(code: string)
    | VerifyCodeFailed
    | VerifyCodeCompleted(token: string)
    | GotoApp
    | Unknown

  /** The side effects a case schedules. */
  datatype Cmd =
    | NoCmd
    | RunAuthenticate(details: StepOneDetails)       // authApi.authenticate(payload)
    | RunResendSms(nonce: string)                     // authApi.resendSMS(nonce)
    | RunVerifyCode(code: string, nonce: string)      // authApi.verifyCode({code, nonce})
    | RedirectToApp(token: string)                    // window.location.assign(REGISTER_APP_URL?token=...)
    | PushStepTwo                                     // push(routes.STEP_TWO)

  datatype Next = Next(state: LoginState, cmd: Cmd)

  /** The observable fields of the state; `Nonce` and `Mobile` are the two halves of `authenticationDetails`. */
  datatype Field =
    | Submitting | Token | Nonce | Mobile | SubmissionError | ResentSms
    | StepOne | ErrorCode | StepSubmitting

  predicate Agrees(s: LoginState, t: LoginState, f: Field) {
    match f
    case Submitting => s.submitting == t.submitting
    case Token => s.token == t.token
    case Nonce => s.authenticationDetails.nonce == t.authenticationDetails.nonce
    case Mobile => s.authenticationDetails.mobile == t.authenticationDetails.mobile
    case SubmissionError => s.submissionError == t.submissionError
    case ResentSms => s.resentSMS == t.resentSMS
    case StepOne => s.stepOneDetails == t.stepOneDetails
    case ErrorCode => s.errorCode == t.errorCode
    case StepSubmitting => s.stepSubmitting == t.stepSubmitting
  }

  /** The fields each action's case spreads over `...state`. */
  function Writes(a: Action): set<Field> {
    match a
    case Authenticate(_) => {Submitting, SubmissionError, ResentSms, StepOne}
    case AuthenticateValidate(_) => {SubmissionError, ErrorCode}
    case AuthenticationFailed(_) => {Submitting, SubmissionError, ErrorCode}
    case AuthenticationCompleted(_, _, _) => {Submitting, SubmissionError, ResentSms, Nonce, Mobile}
    case ResendSms => {SubmissionError, ResentSms}
    case ResendSmsFailed => {SubmissionError, ResentSms}
    case ResendSmsCompleted(_) => {SubmissionError, ResentSms, Nonce}
    case VerifyCode(_) => {Submitting, SubmissionError, ResentSms}
    case VerifyCodeFailed => {Submitting, SubmissionError}
    case VerifyCodeCompleted(_) => {StepSubmitting, SubmissionError, ResentSms, Token}
    case GotoApp => {}
    case Unknown => {}
  }

  /** `loginReducer`. */
  function Reduce(s: LoginState, a: Action): (r: Next)
    ensures forall f :: f !in Writes(a) ==> Agrees(s, r.state, f)
    ensures a.Authenticate? ==>
              && r.state.submitting && !r.state.submissionError && !r.state.resentSMS
              && r.state.stepOneDetails == a.details
              && r.cmd == RunAuthenticate(a.details)
    ensures a.AuthenticateValidate? ==>
              r.state.submissionError && r.state.errorCode == Some(a.validationCode) && r.cmd == NoCmd
    ensures a.AuthenticationFailed? ==>
              && !r.state.submitting && r.state.submissionError && r.cmd == NoCmd
              && r.state.errorCode == (if a.response.Some? then a.response.value.status else None)
    ensures a.AuthenticationCompleted? ==>
              && (r.state.submitting <==> Truthy(a.authToken))
              && !r.state.submissionError && !r.state.resentSMS
              && r.state.authenticationDetails == AuthenticationDetails(a.nonce, a.mobile)
              && r.cmd == (if Truthy(a.authToken) then RedirectToApp(a.authToken.value) else PushStepTwo)
    ensures a.ResendSms? ==>
              !r.state.submissionError && !r.state.resentSMS &&
              r.cmd == RunResendSms(s.authenticationDetails.nonce)
    ensures a.ResendSmsFailed? ==> !r.state.resentSMS && r.state.submissionError && r.cmd == NoCmd
    ensures a.ResendSmsCompleted? ==>
              && r.state.resentSMS && !r.state.submissionError
              && r.state.authenticationDetails == AuthenticationDetails(a.nonce, s.authenticationDetails.mobile)
              && r.cmd == NoCmd
    ensures a.VerifyCode? ==>
              r.state.submitting && !r.state.submissionError && !r.state.resentSMS &&
              r.cmd == RunVerifyCode(a.code, s.authenticationDetails.nonce)
    ensures a.VerifyCodeFailed? ==> !r.state.submitting && r.state.submissionError && r.cmd == NoCmd
    ensures a.VerifyCodeCompleted? ==>
              && r.state.token == a.token && r.state.stepSubmitting == Some(false)
              && !r.state.submissionError && !r.state.resentSMS
              && r.state.submitting == s.submitting
              && r.cmd == RedirectToApp(a.token)
    ensures a.GotoApp? ==> r == Next(s, RedirectToApp(s.token))
    ensures a.Unknown? ==> r == Next(s, NoCmd)
  {
    match a
    case Authenticate(details) =>
      Next(s.(submitting := true, submissionError := false, resentSMS := false, stepOneDetails := details),
           RunAuthenticate(details))
    case AuthenticateValidate(code) =>
      Next(s.(submissionError := true, errorCode := Some(code)), NoCmd)
    case AuthenticationFailed(response) =>
      var errorCode := match response case None => None case Some(res) => res.status;
      Next(s.(submitting := false, submissionError := true, errorCode := errorCode), NoCmd)
    case AuthenticationCompleted(authToken, nonce, mobile) =>
      var hasToken := Truthy(authToken);
      Next(s.(submitting := hasToken, submissionError := false, resentSMS := false,
              authenticationDetails := s.authenticationDetails.(nonce := nonce, mobile := mobile)),
           if hasToken then RedirectToApp(authToken.value) else PushStepTwo)
    case ResendSms =>
      Next(s.(submissionError := false, resentSMS := false), RunResendSms(s.authenticationDetails.nonce))
    case ResendSmsFailed =>
      Next(s.(resentSMS := false, submissionError := true), NoCmd)
    case ResendSmsCompleted(nonce) =>
      Next(s.(resentSMS := true, submissionError := false,
              authenticationDetails := s.authenticationDetails.(nonce := nonce)), NoCmd)
    case VerifyCode(code) =>
      Next(s.(submitting := true, submissionError := false, resentSMS := false),
           RunVerifyCode(code, s.authenticationDetails.nonce))
    case VerifyCodeFailed =>
      Next(s.(submitting := false, submissionError := true), NoCmd)
    case VerifyCodeCompleted(token) =>
      Next(s.(stepSubmitting := Some(false), submissionError := false, resentSMS := false, token := token),
           RedirectToApp(token))
    case GotoApp =>
      Next(s, RedirectToApp(s.token))
    case Unknown =>
      Next(s, NoCmd)
  }

  // ---------------------------------------------------------------------------
  // Traces

  /** The state after dispatching `acts` in order, starting from `s`. */
  function Run(s: LoginState, acts: seq<Action>): LoginState
    decreases |acts|
  {
    if |acts| == 0 then s
    else Reduce(Run(s, acts[..|acts| - 1]), acts[|acts| - 1]).state
  }

  /** The nonce of the last action that delivered one, or `s`'s when none did. */
  function LastNonce(s: LoginState, acts: seq<Action>): string
    decreases |acts|
  {
    if |acts| == 0 then s.authenticationDetails.nonce
    else match acts[|acts| - 1]
      case AuthenticationCompleted(_, nonce, _) => nonce
      case ResendSmsCompleted(nonce) => nonce
      case _ => LastNonce(s, acts[..|acts| - 1])
  }

  /** The mobile number of the last completed authentication, or `s`'s when none completed. */
  function LastMobile(s: LoginState, acts: seq<Action>): string
    decreases |acts|
  {
    if |acts| == 0 then s.authenticationDetails.mobile
    else match acts[|acts| - 1]
      case AuthenticationCompleted(_, _, mobile) => mobile
      case _ => LastMobile(s, acts[..|acts| - 1])
  }

  /** The token of the last completed code verification, or `s`'s when none completed. */
  function LastToken(s: LoginState, acts: seq<Action>): string
    decreases |acts|
  {
    if |acts| == 0 then s.token
    else match acts[|acts| - 1]
      case VerifyCodeCompleted(token) => token
      case _ => LastToken(s, acts[..|acts| - 1])
  }

  /**
    The nonce, mobile number and token held after any sequence of actions
    are the ones most recently delivered: a resent SMS replaces the nonce
    and keeps the mobile number, and nothing else touches them.
   */
  lemma {:induction false} DetailsAreLastDelivered(s: LoginState, acts: seq<Action>)
    ensures Run(s, acts).authenticationDetails == AuthenticationDetails(LastNonce(s, acts), LastMobile(s, acts))
    ensures Run(s, acts).token == LastToken(s, acts)
    decreases |acts|
  {
    if |acts| > 0 {
      var prefix := acts[..|acts| - 1];
      DetailsAreLastDelivered(s, prefix);
      var before := Run(s, prefix);
      var a := acts[|acts| - 1];
      assert Agrees(before, Reduce(before, a).state, Nonce) || Nonce in Writes(a);
      assert Agrees(before, Reduce(before, a).state, Mobile) || Mobile in Writes(a);
      assert Agrees(before, Reduce(before, a).state, Token) || Token in Writes(a);
    }
  }

  /** The code check is always sent with the most recently delivered nonce. */
  lemma VerifyCodeUsesLatestNonce(s: LoginState, acts: seq<Action>, code: string)
    ensures Reduce(Run(s, acts), VerifyCode(code)).cmd == RunVerifyCode(code, LastNonce(s, acts))
    ensures Reduce(Run(s, acts), ResendSms).cmd == RunResendSms(LastNonce(s, acts))
  {
    DetailsAreLastDelivered(s, acts);
  }

  /** GOTO_APP hands over the token of the last completed verification. */
  lemma GotoAppUsesLatestToken(s: LoginState, acts: seq<Action>)
    ensures Reduce(Run(s, acts), GotoApp).cmd == RedirectToApp(LastToken(s, acts))
  {
    DetailsAreLastDelivered(s, acts);
  }

  /**
    A completed code verification leaves `submitting` set: the case writes
    the undeclared `stepSubmitting` key instead, so after VERIFY_CODE and
    VERIFY_CODE_COMPLETED the form still reads as submitting.
   */
  lemma VerifyCodeCompletedLeavesSubmitting(s: LoginState, code: string, token: string)
    ensures var sent := Reduce(s, VerifyCode(code)).state;
            var done := Reduce(sent, VerifyCodeCompleted(token)).state;
            done.submitting && done.token == token && done.stepSubmitting == Some(false)
  {
  }

  /** Dispatching an action that writes nothing leaves the state as it was. */
  lemma NoWritesNoChange(s: LoginState, a: Action)
    requires Writes(a) == {}
    ensures Reduce(s, a).state == s
  {
    var t := Reduce(s, a).state;
    assert Agrees(s, t, Submitting) && Agrees(s, t, Token) && Agrees(s, t, Nonce) && Agrees(s, t, Mobile);
    assert Agrees(s, t, SubmissionError) && Agrees(s, t, ResentSms) && Agrees(s, t, StepOne);
    assert Agrees(s, t, ErrorCode) && Agrees(s, t, StepSubmitting);
  }
}

=== FILE: notification_reducer.dfy ===
/**
  The register application's notification flags: the reducer that shows and
  hides the background-sync banner, the configuration-error banner, the
  session-expired modal, the draft-saved toast and the two form-submission
  toasts.
 */
module NotificationReducer {
  import opened Wrappers

  /**
    `NotificationState`. The waiting service worker is a browser object the
    reducer never touches; it is kept as an opaque handle.
   */
  datatype NotificationState = NotificationState(
    backgroundSyncMessageVisible: bool,
    configurationErrorVisible: bool,
    waitingSW: Option<nat>,
    sessionExpired: bool,
    saveDraftClicked: bool,
    submitFormSuccessToast: Option<string>,
    submitFormErrorToast: Option<string>)

  const InitialState: NotificationState :=
    NotificationState(false, false, None, false, false, None, None)

  /** The actions the reducer distinguishes; `Unknown` is every other action type. */
  datatype Action =
    | ShowBackgroundSync
    | HideBackgroundSync
    | SessionExpired
    | ShowConfigError
    | HideConfigError
    | ToggleDraftSavedNotification
    | ShowSubmitFormSuccessToast(data: string)
    | HideSubmitFormSuccessToast
    | ShowSubmitFormErrorToast(data: string)
    | HideSubmitFormErrorToast
    | Unknown

  datatype Field =
    | BackgroundSync | ConfigError | WaitingSW | Expired | DraftSaved | SuccessToast | ErrorToast

  predicate Agrees(s: NotificationState, t: NotificationState, f: Field) {
    match f
    case BackgroundSync => s.backgroundSyncMessageVisible == t.backgroundSyncMessageVisible
    case ConfigError => s.configurationErrorVisible == t.configurationErrorVisible
    case WaitingSW => s.waitingSW == t.waitingSW
    case Expired => s.sessionExpired == t.sessionExpired
    case DraftSaved => s.saveDraftClicked == t.saveDraftClicked
    case SuccessToast => s.submitFormSuccessToast == t.submitFormSuccessToast
    case ErrorToast => s.submitFormErrorToast == t.submitFormErrorToast
  }

  /** The one field each action's case spreads over `...state`, if any. */
  function Writes(a: Action): Option<Field> {
    match a
    case ShowBackgroundSync => Some(BackgroundSync)
    case HideBackgroundSync => Some(BackgroundSync)
    case SessionExpired => Some(Expired)
    case ShowConfigError => Some(ConfigError)
    case HideConfigError => Some(ConfigError)
    case ToggleDraftSavedNotification => Some(DraftSaved)
    case ShowSubmitFormSuccessToast(_) => Some(SuccessToast)
    case HideSubmitFormSuccessToast => Some(SuccessToast)
    case ShowSubmitFormErrorToast(_) => Some(ErrorToast)
    case HideSubmitFormErrorToast => Some(ErrorToast)
    case Unknown => None
  }

  /** `notificationReducer`. */
  function Reduce(s: NotificationState, a: Action): (r: NotificationState)
    ensures forall f :: Writes(a) != Some(f) ==> Agrees(s, r, f)
    ensures a.ShowBackgroundSync? ==> r.backgroundSyncMessageVisible
    ensures a.HideBackgroundSync? ==> !r.backgroundSyncMessageVisible
    ensures a.ShowConfigError? ==> r.configurationErrorVisible
    ensures a.HideConfigError? ==> !r.configurationErrorVisible
    ensures s.sessionExpired || a.SessionExpired? ==> r.sessionExpired
    ensures a.ToggleDraftSavedNotification? ==> r.saveDraftClicked == !s.saveDraftClicked
    ensures a.ShowSubmitFormSuccessToast? ==> r.submitFormSuccessToast == Some(a.data)
    ensures a.HideSubmitFormSuccessToast? ==> r.submitFormSuccessToast.None?
    ensures a.ShowSubmitFormErrorToast? ==> r.submitFormErrorToast == Some(a.data)
    ensures a.HideSubmitFormErrorToast? ==> r.submitFormErrorToast.None?
  {
    match a
    case ShowBackgroundSync => s.(backgroundSyncMessageVisible := true)
    case HideBackgroundSync => s.(backgroundSyncMessageVisible := false)
    case SessionExpired => s.(sessionExpired := true)
    case ShowConfigError => s.(configurationErrorVisible := true)
    case HideConfigError => s.(configurationErrorVisible := false)
    case ToggleDraftSavedNotification => s.(saveDraftClicked := !s.saveDraftClicked)
    case ShowSubmitFormSuccessToast(data) => s.(submitFormSuccessToast := Some(data))
    case HideSubmitFormSuccessToast => s.(submitFormSuccessToast := None)
    case ShowSubmitFormErrorToast(data) => s.(submitFormErrorToast := Some(data))
    case HideSubmitFormErrorToast => s.(submitFormErrorToast := None)
    case Unknown => s
  }

  /** The state after dispatching `acts` in order, starting from `s`. */
  function Run(s: NotificationState, acts: seq<Action>): NotificationState
    decreases |acts|
  {
    if |acts| == 0 then s
    else Reduce(Run(s, acts[..|acts| - 1]), acts[|acts| - 1])
  }

  /** A state that differs from `s` in field `f` only. */
  lemma AgreeElsewhereIsEqual(s: NotificationState, t: NotificationState, f: Field)
    requires forall g :: g != f ==> Agrees(s, t, g)
    requires Agrees(s, t, f)
    ensures s == t
  {
    assert Agrees(s, t, BackgroundSync) && Agrees(s, t, ConfigError) && Agrees(s, t, WaitingSW);
    assert Agrees(s, t, Expired) && Agrees(s, t, DraftSaved);
    assert Agrees(s, t, SuccessToast) && Agrees(s, t, ErrorToast);
  }

  /** Toggling the draft-saved notification twice restores the state. */
  lemma ToggleTwiceRestores(s: NotificationState)
    ensures Reduce(Reduce(s, ToggleDraftSavedNotification), ToggleDraftSavedNotification) == s
  {
    var t := Reduce(Reduce(s, ToggleDraftSavedNotification), ToggleDraftSavedNotification);
    AgreeElsewhereIsEqual(s, t, DraftSaved);
  }

  /**
    `a` asks for what `s` already shows: an unknown action, a show or hide
    of a banner already in that state, SESSION_EXPIRED on an expired
    session, or a toast set to the data it already holds. Only the
    draft-saved toggle always changes something.
   */
  predicate Repeats(s: NotificationState, a: Action) {
    match a
    case ShowBackgroundSync => s.backgroundSyncMessageVisible
    case HideBackgroundSync => !s.backgroundSyncMessageVisible
    case SessionExpired => s.sessionExpired
    case ShowConfigError => s.configurationErrorVisible
    case HideConfigError => !s.configurationErrorVisible
    case ToggleDraftSavedNotification => false
    case ShowSubmitFormSuccessToast(data) => s.submitFormSuccessToast == Some(data)
    case HideSubmitFormSuccessToast => s.submitFormSuccessToast.None?
    case ShowSubmitFormErrorToast(data) => s.submitFormErrorToast == Some(data)
    case HideSubmitFormErrorToast => s.submitFormErrorToast.None?
    case Unknown => true
  }

  /** An action leaves the state as it was exactly when it repeats what the state already shows. */
  lemma UnchangedWhenAlreadySet(s: NotificationState, a: Action)
    ensures Reduce(s, a) == s <==> Repeats(s, a)
  {
  }

  /**
    The session-expired flag is a latch: after any sequence of actions it is
    set exactly when it was set to begin with or SESSION_EXPIRED was
    dispatched.
   */
  lemma {:induction false} SessionExpiredIsLatched(s: NotificationState, acts: seq<Action>)
    ensures Run(s, acts).sessionExpired <==> s.sessionExpired || SessionExpired in acts
    decreases |acts|
  {
    if |acts| > 0 {
      var prefix := acts[..|acts| - 1];
      var a := acts[|acts| - 1];
      SessionExpiredIsLatched(s, prefix);
      assert acts == prefix + [a];
      assert SessionExpired in acts <==> SessionExpired in prefix || a == SessionExpired;
      assert a != SessionExpired ==> Writes(a) != Some(Expired);
      assert Agrees(Run(s, prefix), Run(s, acts), Expired) || a == SessionExpired;
    }
  }

  /** The waiting service worker is never changed by this reducer. */
  lemma {:induction false} WaitingWorkerUntouched(s: NotificationState, acts: seq<Action>)
    ensures Run(s, acts).waitingSW == s.waitingSW
    decreases |acts|
  {
    if |acts| > 0 {
      WaitingWorkerUntouched(s, acts[..|acts| - 1]);
      assert Agrees(Run(s, acts[..|acts| - 1]), Run(s, acts), WaitingSW);
    }
  }

  /** From the initial state, a session can only be expired by SESSION_EXPIRED. */
  lemma InitialSessionNotExpired(acts: seq<Action>)
    ensures Run(InitialState, acts).sessionExpired <==> SessionExpired in acts
  {
    SessionExpiredIsLatched(InitialState, acts);
  }
}

=== FILE: wrappers.dfy ===
/** Failure-compatible result types shared by the registration model. */
module Wrappers {

  /** An optional value; `None` stands for JavaScript's `undefined` / `null`. */
  datatype Option<+T> = None | Some(value: T) {

    /** The wrapped value, or `default` when absent (JavaScript's `x || default` on objects). */
    function GetOr(default: T): T {
      match this
      case Some(v) => v
      case None => default
    }
  }

  /** The outcome of a step that either returns a value or throws an error. */
  datatype Result<+T, +E> = Success(value: T) | Failure(error: E) {

    predicate IsFailure() {
      Failure?
    }

    function PropagateFailure<U>(): Result<U, E>
      requires Failure?
    {
      Failure(error)
    }

    function Extract(): T
      requires Success?
    {
      value
    }
  }

  /** The outcome of a step that returns nothing but may throw. */
  datatype Outcome<+E> = Pass | Fail(error: E)
}
